=== FILE: README.md ===
# A Dafny model of the fabfile deployment script

`fabfile.py` is a Fabric script that deploys a Django application to a remote
host. Its `deploy` action works through a fixed sequence of steps:

1. it reads the server clock to name a release directory (`YYYYMMDD_HHMMSS`);
2. it refuses to go on if the live checkout has uncommitted changes, unless `force` was given;
3. it checks the requested revision out into the new release directory and appends the changelog;
4. when `requirements.txt` changed since the previous release, it runs `pip install -r` on the requirements file in the application root;
5. it dry-runs the database migration;
6. it compiles the message catalogs, dumps the database, and migrates it;
7. it makes the old release unreadable and repoints the application path at the new one;
8. it restarts the server and optionally mails a report.

`setup` creates the directories, clones the repository, checks out a first release, builds the
virtualenv, creates the database if it is missing, runs `syncdb` and `migrate`, and links the
release. As written, those migrations run in the login directory, so setup only reaches the
link when that directory happens to hold a Django project (see Findings).

The model has these modules:

- **Strings**: Python's `str.replace`, `split`, `join`, `in` and truthiness.
- **Version**: the release identifier and the paths derived from it.
- **Git**: a linear branch history, and what `git log` prints for a range.
- **Environment**: the `env` defaults, the `live`/`dev` presets, the run-once option tasks, and `init`.
- **Revision**: the previous revision, the changelog, and the requirements decision.
- **Database**: `db_create`.
- **Steps**: one constructor per remote `run` call.
- **Remote**: the host state, and Fabric's rule that a step exiting non-zero aborts the whole run.
- **Pipeline**: every action as the helpers it calls, each helper as the steps it runs.
- **Guarantees**: what running deploy and setup does to the host.

Nothing outside the script is modelled directly. The host, the git history, the clock and
the commands that break are parameters: `Host` and `World`. A multi-line `run` script
reports the status of its last command only, and the model follows that. For example,
`git log ... | tee -a CHANGELOG` never fails because of git. Likewise the link script of
fabfile.py:282-289 repoints the application path with its first command and reports its
last link: a failing link step has still moved the live release (`Remote.LinkSwapAlwaysRepoints`).

`World.history` is the history of the branch the run fetches, checks out and merges. That is
the configured `branch` (default `master`). The model does not use the branch name otherwise.

Where the documented intent and the code disagree, the model follows the code:
- The requirements query of fabfile.py:242 runs before the `previous_revision is not None`
  test. With no previous revision it asks git for the range `None..<actual>`. Unless some
  commit is named `None`, git rejects that range and the deploy stops there, before the
  dry-run (`Guarantees.NoPreviousRevisionStopsDeploy`). The model runs the query as written
  (`Pipeline.RequirementsSteps`). The evidently intended version is kept beside it and
  compared with it in `Pipeline.RequirementsVersionsDiffer`; see Findings.
- Even past that query, a first `deploy` to a host with nothing at the application path
  could not complete. The `chmod 000 $(readlink -f app_path)` of fabfile.py:279-281 fails on
  a missing path (`Guarantees.FirstDeployNeverCompletes`). Only `setup` can link a first
  release, and, as the next item says, only when the login directory holds a Django project.
- db_create's `syncdb` and `migrate` (fabfile.py:159-162) have no `cd`, unlike its CREATE. They
  run in the login directory, where `manage.py` is normally absent. There they fail, and setup
  stops before `link_to_current` (`Guarantees.SetupStopsAtMigrations`). The model runs them
  there. Whether the login directory holds a project is `World.loginDirProject`.
- Provisioning is described as re-runnable, but `git clone` into an existing directory
  fails, so a second `setup` stops there (`Guarantees.SetupNotRerunnable`).
- The failure handler of fabfile.py:178-179 assigns to a misspelled attribute
  (`previos_revision`). A failed lookup therefore leaves `previous_revision` at its initial
  `None` (`Revision.PreviousRevisionFromLookup`).
- The header comment lists `setup_no_db` and a `req` option. Neither exists in the script,
  and neither is modelled.

## Model

| member | source | states |
|---|---|---|
| Strings.ReplaceChar | fabfile.py:128 | replacing a character by text that does not contain it leaves no occurrence of that character |
| Strings.Split | fabfile.py:152 | `split('\n')` always yields at least one piece and no piece contains a newline |
| Strings.JoinSplit | fabfile.py:152 | joining the pieces of a split with the separator gives the original output back |
| Strings.SplitJoin | fabfile.py:152 | splitting newline-joined lines that contain no newline gives exactly those lines back |
| Version.VersionDir | fabfile.py:128 | the version directory contains no `-`, `:` or space |
| Version.VersionDirIsCharwise | fabfile.py:128 | the three chained `replace` calls act character by character: `-` and `:` vanish, a space becomes `_`, the rest stays |
| Version.VersionDirOfTimestamp | fabfile.py:127-128 | for a `YYYY-MM-DD HH:MM:SS` timestamp the version directory is its digit groups `YYYYMMDD_HHMMSS` |
| Version.TimestampRoundTrip | fabfile.py:127-128 | the version directory of a `date` timestamp has the `YYYYMMDD_HHMMSS` shape and the timestamp can be read back from it |
| Version.VersionDirRoundTrip | fabfile.py:128 | every `YYYYMMDD_HHMMSS` name is the version directory of the timestamp read back from it |
| Version.VersionDirInjective | fabfile.py:127-128 | two different `date` timestamps never share a version directory |
| Version.DroppedDashCollides | fabfile.py:128 | on arbitrary strings the transform is not injective: a dropped dash makes two names collide |
| Version.VersionPath | fabfile.py:129-130 | the release directory lies under the application root and is never the live application path |
| Version.DistinctTimestampsDistinctReleases | fabfile.py:127-129 | deployments started at different seconds get different release directories and different backup files |
| Git.Find | fabfile.py:192-195 | a found position holds the named commit; when nothing is found no commit has that name, so git rejects it |
| Git.BetweenIsAncestry | fabfile.py:204 | the commits listed for `prev..actual` are exactly those that are ancestors of `actual` but not of `prev`, oldest first |
| Git.RangeLog | fabfile.py:204 | a range log exists exactly when git knows both ends |
| Git.SingleLog | fabfile.py:209 | `git log -1 ref` yields exactly the named commit, and fails exactly when the name is unknown |
| Git.PathLogEmpty | fabfile.py:242 | the log restricted to a path is empty exactly when no commit of the range touches that path |
| Git.PathLogMentionsCommit | fabfile.py:242 | the test `'commit' in output` holds exactly when some commit of the range touches the path |
| Environment.DevManagesServer | fabfile.py:86-91 | after `dev` a pidfile and a port are set, so the server is managed; the WSGI setting is left as it was |
| Environment.LiveLinksWsgiOnly | fabfile.py:74-91 | `live` links a WSGI script and manages no server; `dev` links none |
| Environment.ForceIffRequested | fabfile.py:110-112 | `force` is on exactly when the `force` task was given |
| Environment.BackupUnlessNoBackup | fabfile.py:95-96 | backups are off exactly when `nobackup` was given |
| Environment.FirstRevisionWins | fabfile.py:98-100 | because `rev` runs once, the first `rev:<hash>` on the command line is the revision used |
| Environment.PresetAfterEmailWins | fabfile.py:86-108 | a `dev` preset given after `email` switches mail off again; `email` after `dev` switches it on |
| Environment.MailFollowsLastSetting | fabfile.py:61-108 | the report is mailed as the last deciding task says: a later `live` turns mail on, a later `dev` turns it off, only the first `email` counts, and with none of them mail is off |
| Environment.NoPresetNoEnvironment | fabfile.py:74-91 | without `live` or `dev` on the command line no environment is named |
| Environment.Init | fabfile.py:118-131 | `init` fails exactly when no preset ran or the settings module is missing; on success the timestamp is the given one or the clock, and the version directory, release path, application path and virtualenv are the ones derived from that timestamp and the application root; the version directory has no `-`, `:` or space, and the release path lies under the root and differs from the application path |
| Environment.InitSeparatesRuns | fabfile.py:127-129 | two runs whose `date` calls print different times get different release paths |
| Revision.PreviousRevisionFromLookup | fabfile.py:173-179 | starting from the initial `None`, the previous revision is exactly the lookup's answer, so absent when the lookup failed |
| Pipeline.PreviousLookupTolerated | fabfile.py:173-179 | the lookup never stops a run: the run goes on with the next step on the same host; there is a previous revision exactly when the lookup succeeded, and it is the commit the live release has checked out |
| Revision.ComposeChangelog | fabfile.py:201-210 | with a previous revision the text is the compare link, a blank line and the appended lines; without one it is the appended lines; every appended line is the log line of some commit |
| Revision.ChangelogListsNewCommits | fabfile.py:201-205 | with a previous revision the CHANGELOG file receives one line per commit after it up to the deployed one, oldest first |
| Revision.ChangelogFirstDeploy | fabfile.py:206-210 | without a previous revision the changelog is exactly the log line of the deployed commit |
| Revision.ChangelogLinesReadBack | fabfile.py:202-205 | read back line by line, the mailed changelog is the compare link, an empty line, then the appended lines |
| Revision.RequirementsAsWrittenAbortsFirstDeploy | fabfile.py:242 | as written, with no previous revision the query asks git for `None..actual`, which git rejects unless a commit is named `None` |
| Revision.RequirementsAsWrittenCounterexample | fabfile.py:242 | a one-commit history on which the first deployment aborts in update_requirements |
| Revision.ReinstallIffRequirementsChanged | fabfile.py:240-245 | requirements are reinstalled exactly when there is a previous revision, git knows both ends and a commit of the range touches `requirements.txt`; the query fails exactly when git rejects a name |
| Database.NeedsCreateIffAbsent | fabfile.py:149-154 | a CREATE is issued exactly when the database is not listed, except that a database named `Database` is mistaken for the header line |
| Database.DbCreateSteps | fabfile.py:148-162 | db_create lists the databases first and runs syncdb and migrate last, in the directory they are run in; the CREATE is among its steps exactly when the test asks for it |
| Database.DbCreateCompletes | fabfile.py:148-162 | db_create completes exactly when none of its commands breaks and the directory its migrations run in holds a Django project; the listing and the CREATE need nothing more |
| Database.AfterDbCreate | fabfile.py:154-157 | db_create keeps the existing databases, in order, and adds at most one: the application's |
| Database.DbCreateEffect | fabfile.py:148-162 | a db_create run that completes changes nothing on the host but the database list, which becomes `AfterDbCreate` of the old one |
| Database.DbCreateIdempotent | fabfile.py:148-162 | after db_create the database is listed; a second run issues no CREATE, changes nothing, and still migrates |
| Database.DbCreateRerunChangesNothing | fabfile.py:148-162 | running db_create again on the host a completed run left issues no CREATE and leaves the host as it was, however that run ends |
| Remote.Execute | fabfile.py:173-179 | the steps that ran are a prefix of the plan; a completed run ran every step; an aborted run ends with the step it stopped at, which `Remote.AbortedAtFailing` shows had failed |
| Remote.AbortedAtFailing | fabfile.py:173-179 | an aborted run stopped at a step the script does not catch, which failed on the host the earlier steps left, and those earlier steps all ran without aborting |
| Remote.PointerMovesOnlyByLinkSwap | fabfile.py:283-284 | a plan without a link swap leaves the application path where it was, however the run ends |
| Remote.BackupsOnlyByBackup | fabfile.py:247-250 | a plan without a dump leaves the backups as they were |
| Remote.BackupsGrow | fabfile.py:248-249 | no run removes a backup file |
| Remote.ChangelogAppendOnly | fabfile.py:204 | the CHANGELOG file is append-only: what it held before is a prefix of what it holds after any run |
| Remote.FailingStepStops | fabfile.py:375-391 | a step that fails where the steps before it leave the host ends the run there, and nothing after it runs; the host is as they left it, except that a failing link step has already repointed the application path |
| Remote.LinkSwapAlwaysRepoints | fabfile.py:282-289 | however the link script ends, the application path points at the new release afterwards; the script fails only when broken |
| Remote.ReleasesGrow | fabfile.py:181-183 | no run removes a release directory |
| Remote.ReleaseMade | fabfile.py:181-183 | a completed run that makes a release directory leaves it on the host |
| Remote.PointerKeptUntilSwap | fabfile.py:283-284 | however a run ends, if no link swap ran the application path still points where it did |
| Remote.CloneOnlyOnce | fabfile.py:215-219 | `git clone` succeeds exactly when the repository is not there yet and the command is not broken; it then only creates the repository, and a failed clone changes nothing |
| Remote.RevokeNeedsLiveRelease | fabfile.py:279-281 | `chmod 000` of the application path's target succeeds exactly when something is linked there and the command is not broken; the old release then becomes unreadable |
| Remote.TestsNeverAbort | fabfile.py:254-257 | because the test command falls back to `exit 0` when the tests fail, no run ever aborts at the tests |
| Remote.ChangelogIgnoresGit | fabfile.py:201-210 | the changelog script reports the status of `tee -a`: it succeeds whatever git knows, unless the command is broken, and then appends exactly the log lines |
| Pipeline.InitSteps | fabfile.py:127 | `date` is called exactly when no timestamp was given |
| Pipeline.CheckoutSteps | fabfile.py:171-210 | repo_checkout always materialises the release directory; it pins exactly the requested revision, and only when `rev` is set |
| Pipeline.RequirementsSteps | fabfile.py:240-245 | as written, update_requirements always runs the log query first, naming the previous revision as `%s` renders it (`None` when absent) and the actual one; it runs nothing but that query and the reinstall, reinstalls exactly when there is a previous revision and the range touches `requirements.txt`, and the reinstall reads the application root's `requirements.txt`, not the release's |
| Pipeline.RequirementsVersionsDiffer | fabfile.py:242 | with no previous revision and no commit named `None`, the script's query fails where the intended version runs nothing; both reinstall under the same condition |
| Pipeline.LinkToCurrentSteps | fabfile.py:276-290 | link_to_current ends by linking the new release, and makes the old one unreadable exactly when not called from setup |
| Pipeline.LinkToCurrentMovesLink | fabfile.py:276-290 | on a deploy, link_to_current either stops at the `chmod` having changed nothing, or leaves the old release unreadable and the application path at the new one, even when a later link failed; it completes exactly when a release is live and neither script breaks |
| Pipeline.ServerStartSteps | fabfile.py:307-323 | the WSGI link is made exactly when a script is set; the server is restarted exactly when a pidfile and a port are set; the checkout is reset exactly when that happens on `dev` |
| Pipeline.DeployHelpers | fabfile.py:375-391 | deploy calls the local-changes check exactly without `force`, the backup exactly with backups on, the report exactly with mail on, and always the dry-run, migration, link and server start |
| Pipeline.HelperStepFacts | fabfile.py:147-323 | every step a helper contributes is one of that helper's own commands, names this run's release, is called for by the run's options and host state, and names this run's revisions |
| Pipeline.DryRunPrecedesDestructiveSteps | fabfile.py:376-389 | deploy's plan is its preparation, one dry-run, then the rest; nothing before the dry-run dumps or changes the database, touches the live release, compiles catalogs, links the WSGI script, restarts the server or mails |
| Pipeline.BeforeRequirementsPrepares | fabfile.py:376-381 | nothing deploy runs before update_requirements touches the live site or the database, or runs the dry-run |
| Pipeline.DeployRequirementsSplit | fabfile.py:380-382 | the requirements query is deploy's first step after repo_checkout, and it names the rendered previous revision and the actual one |
| Pipeline.DeployLinkSplit | fabfile.py:385-389 | in deploy the old release is made unreadable immediately before the link swap |
| Pipeline.NoLinkBefore | fabfile.py:376-387 | nothing deploy runs before link_to_current makes a link |
| Pipeline.DeployChecksFirst | fabfile.py:376-379 | without `force`, deploy's first remote steps are the clock read and the local-changes check |
| Pipeline.DeployChecksUnlessForced | fabfile.py:367-379 | the live checkout and the login directory are both checked for changes exactly when `force` is off |
| Pipeline.DeployBacksUpWhenEnabled | fabfile.py:385-386 | deploy dumps the database exactly when backups are on, and only to this release's backup file |
| Pipeline.DeployReportsWhenAsked | fabfile.py:390-391 | the report is mailed exactly when mail is on |
| Pipeline.DeployAlwaysReleases | fabfile.py:387-388 | every deploy migrates, makes the old release unreadable and links the new one |
| Pipeline.LinksOnlyNewRelease | fabfile.py:283-284 | the only link any action makes is to this run's release directory |
| Pipeline.DeployPinsRequestedRevision | fabfile.py:192-195 | deploy pins a revision exactly when `rev` was given |
| Pipeline.DeployReinstallsWhenChanged | fabfile.py:382 | deploy reinstalls the requirements exactly when there is a previous revision and they changed since it, and only from the application root's requirements file |
| Pipeline.SetupClonesEarly | fabfile.py:136-141 | setup clones right after init and the `mkdir` calls, which change nothing the model tracks |
| Pipeline.SetupLinksLast | fabfile.py:141-145 | setup links the new release as its very last step, and nothing before it makes a link |
| Pipeline.SetupNeverRevokes | fabfile.py:145 | setup never makes an old release unreadable |
| Pipeline.SetupCreatesMissingDatabase | fabfile.py:144 | setup always lists the databases and migrates in the login directory, and creates the database exactly when the listing lacks it |
| Pipeline.SetupDbSplit | fabfile.py:136-144 | before its link, setup runs the helpers up to db_create and then db_create's steps, with the migrations in the login directory |
| Pipeline.SetupEndsWithMigrations | fabfile.py:144-162 | setup's last two steps are the migrations in the login directory and the link, and nothing before them links |
| Pipeline.SetupMakesRelease | fabfile.py:142 | the helpers setup runs before db_create include the checkout that makes the release directory |
| Pipeline.OnlyDeployAndSetupLink | fabfile.py:394-400 | backup, test, server_start and virtualenv never move the application path, however they end |
| Guarantees.DryRunFailureStopsDeploy | fabfile.py:383 | when the migration dry-run fails, deploy aborts having run only preparation steps and the dry-run: nothing destructive, no catalogs, no WSGI link, no report, the live link where it was and no new backup |
| Guarantees.DestructiveStepsFollowDryRun | fabfile.py:383-389 | in every deploy run, each destructive step that ran comes after the migration dry-run, and the run up to and including that dry-run completed, so the dry-run passed |
| Guarantees.LocalChangesBlockDeploy | fabfile.py:367-379 | without `force`, uncommitted changes in the live checkout abort deploy before anything on the host changes |
| Guarantees.BackupFollowsSetting | fabfile.py:385-386 | with backups off the backups are untouched; with them on a completed deploy leaves this release's dump |
| Guarantees.NoPreviousRevisionStopsDeploy | fabfile.py:242 | with no previous revision and no commit named `None`, deploy aborts at the requirements query: nothing destructive and no dry-run ran, the live link and the backups are as they were |
| Guarantees.AbortBeforeLinkKeepsPointer | fabfile.py:385-389 | a deploy run that never reached the link swap aborted, and the application path still points where it did, wherever the run stopped |
| Guarantees.FirstDeployNeverCompletes | fabfile.py:279-281 | a deploy to a host with nothing at the application path aborts without ever making a link; unless a commit is named `None` it already stops at the requirements query, before anything destructive or the dry-run |
| Guarantees.SetupNotRerunnable | fabfile.py:215-219 | setup on a host that already has the repository aborts with the host unchanged |
| Guarantees.SetupStopsAtMigrations | fabfile.py:159-162 | as written, when the login directory holds no Django project, setup aborts without linking and leaves the application path where it was |
| Guarantees.IntendedDbCreateFindsRelease | fabfile.py:159-162 | with the migrations run in the new release, once the helpers before db_create completed, db_create completes exactly when none of its commands breaks, whatever the login directory holds |
| Guarantees.SmoothStepsHarmless | fabfile.py:375-391 | on a ready host whose live release has a HEAD git knows, with clean checkouts, nothing broken and known revisions, no deploy step can fail |
| Guarantees.SmoothDeployCompletes | fabfile.py:375-391 | such a deploy completes, links the application path to the new release and, with backups on, leaves this release's dump |
| Guarantees.ForcedDeploySkipsChecks | fabfile.py:110-112 | `fab ... force ... deploy` never runs either local-changes check |
| Guarantees.UnforcedDeployBlockedByChanges | fabfile.py:367-379 | without `force`, uncommitted changes in the live checkout make `fab ... deploy` abort with the host unchanged |
| Guarantees.NoBackupDeployKeepsBackups | fabfile.py:95-96 | `fab ... nobackup ... deploy` leaves the backups as they were, and a completed run still migrated |
| Guarantees.NoPresetRunsNothing | fabfile.py:118-120 | without `live` or `dev` every action stops in `init` with no environment, before any remote step |

## Left out

- `status` is not modelled. The script itself marks it as broken, and it reads `env.port`, which is never set.
- `init_test_db` is never called by any action.
- `send_report` is one step (`MailReport`). The message text and the SMTP exchange are not modelled, and neither is the delivery-failure branch, which refers to an undefined name.
- `init`'s `exec` import of `settings_<env>` is a lookup in a `registry` map from environment names to settings.
- Remote commands are not modelled as shell strings. Each `run` is one step with the arguments the model needs.
- A failing multi-line script's partial effects are not modelled, except the link script's first `ln` (`Remote.Fallout`). Every other failing step changes nothing. A failing link step is taken to have repointed the application path even when it was that first `ln` that broke.
- Git.Find: `rev` must be a full commit id. Abbreviated ids, tags and branch names are not resolved, so `rev:abc1234` fails at the pin where git would accept it, and `actual_revision` is `rev` as typed rather than what `git rev-parse HEAD` prints.
- The login user is not modelled. `chmod 000` does not stop root from reading, and the lookup of fabfile.py:174-177 reads the HEAD of an unreadable release. A run never leaves the application path at a release it made unreadable (`Pipeline.LinkToCurrentMovesLink`).
- Whether `manage.py` finds its settings module is not modelled. A release directory holds a project once made; the login directory holds one exactly when `World.loginDirProject` says so.
- Runs are against one host. Fabric's per-host repetition and concurrent invocations are not modelled.
- `@runs_once` is modelled for the option tasks only. `init` is called several times in one action: deploy calls it at fabfile.py:376, inside repo_checkout (172) and inside server_start (308); setup at 136, inside repo_setup (214) and inside repo_checkout (172). The model issues its `date` step once (`InitTimestamp`), because `init` is `@runs_once` (117) and the `hasattr(env, 'timestamp')` guard (127) skips `date` once a timestamp is set. Every other helper is called at most once per action.
- The `pkill`, `sleep` and `nohup` inside the server restart are not modelled. The restart step fails only when it is among the broken steps.
- Git history is linear. Merges are not modelled.
- Fabric's stripping of command output is not modelled.
- When the `cd` into the application path fails, the script still runs `git rev-parse HEAD` in the login directory (fabfile.py:174-177). The model treats that lookup as failed: no previous revision.
- ReinstallRequirements: the step names `<app_root>/requirements.txt`, the file `pip install -r` reads after the `cd` of fabfile.py:243. No action creates that file. Whether it exists is not modelled; a missing file is one of the broken steps in `World.broken`.
- `repo_update` is not a helper of its own. Its fetch is the `FetchRepository` step inside repo_checkout.
- The timestamp comes from `World.clock`, or from a preset `timestamp` given on the command line.
- A plan is computed from the host as the action finds it. No step before repo_checkout or db_create changes what those helpers read.
- Guarantees.LocalChangesBlockDeploy: does not name the failing step, because the clock read before it can itself fail.
- Guarantees.SetupNotRerunnable: does not name the failing step, because a `mkdir` before the clone can itself fail.

## Findings

| source | as written | input that shows it | evidently intended | confidence | as-written member | corrected member |
|---|---|---|---|---|---|---|
| fabfile.py:242 | `run('git log %(previous_revision)s..%(actual_revision)s ...')` runs before the `previous_revision is not None` test, so with no previous revision git is asked for `None..<actual>`, rejects it and the run aborts | a first deployment: no previous revision, history `[c1]`, actual `c1` | skip the query and keep the requirements when there is no previous revision (`Pipeline.RequirementsVersionsDiffer` compares the two versions); the deploy as written stops at the query (`Guarantees.NoPreviousRevisionStopsDeploy`) | not executed | Revision.RequirementsAsWrittenCounterexample | Revision.ReinstallIffRequirementsChanged |
| fabfile.py:159-162 | `syncdb` and `migrate` run with no `cd`, so in the login directory, where `manage.py` is normally absent; they fail and setup stops before `link_to_current` | `fab dev setup` on a fresh host whose login directory holds no Django project: the release is checked out and the database created, then the migrations fail and nothing is linked | run them in the new release, as the CREATE does with `cd %(version_path)s` | not executed | Guarantees.SetupStopsAtMigrations | Guarantees.IntendedDbCreateFindsRelease |

=== FILE: database.dfy ===
/** `db_create` (fabfile.py:147-162): list the databases, create the
    application's database when it is not listed, then always run `syncdb` and
    `migrate`, which need a Django project in the directory they run in. */
module Database {
  import opened Strings
  import opened Steps
  import opened Remote

  /** What `echo "show databases;" | mysql --raw --batch` prints for the given
      databases: the column header, then one name per line. */
  function Listing(names: seq<string>): string
    decreases |names|
  {
    if names == [] then "Database" else Listing(names[..|names| - 1]) + "\n" + names[|names| - 1]
  }

  /** The listing is the header and the names joined by newlines. */
  lemma {:induction false} ListingJoin(names: seq<string>)
    ensures Listing(names) == Join(["Database"] + names, '\n')
    decreases |names|
  {
    if names != [] {
      var init := names[..|names| - 1];
      ListingJoin(init);
      assert ["Database"] + names == (["Database"] + init) + [names[|names| - 1]];
      JoinSnoc(["Database"] + init, names[|names| - 1], '\n');
    }
  }

  /** fabfile.py:152-154: a CREATE is issued when `db_name` is not one of the
      lines of the listing. */
  predicate NeedsCreate(dbName: string, listing: string)
  {
    dbName !in Split(listing, '\n')
  }

  /** On a real listing the test asks whether the database exists, except that
      a database literally called `Database` is mistaken for the header line. */
  lemma {:induction false} NeedsCreateIffAbsent(dbName: string, names: seq<string>)
    requires NoneContains(names, '\n')
    ensures NeedsCreate(dbName, Listing(names)) <==> dbName !in names && dbName != "Database"
  {
    var parts := ["Database"] + names;
    assert NoneContains(parts, '\n') by {
      forall i | 0 <= i < |parts| ensures '\n' !in parts[i] {
        if i > 0 { assert parts[i] == names[i - 1]; }
      }
    }
    SplitJoin(parts, '\n');
    ListingJoin(names);
  }

  /** The steps `db_create` runs against a server holding `names`, with its
      closing `syncdb` and `migrate` run in `dir`. The script as written has
      no `cd` before them (fabfile.py:159-162), so it runs them in `LoginDir`. */
  function DbCreateSteps(dbName: string, names: seq<string>, dir: string): (r: seq<Step>)
    ensures |r| >= 2 && r[0] == ListDatabases && r[|r| - 1] == SyncAndMigrate(dir)
    ensures CreateDatabase(dbName) in r <==> NeedsCreate(dbName, Listing(names))
    ensures forall i :: 0 <= i < |r| ==> r[i].ListDatabases? || r[i].CreateDatabase? || r[i] == SyncAndMigrate(dir)
  {
    var create := NeedsCreate(dbName, Listing(names));
    [ListDatabases] + (if create then [CreateDatabase(dbName)] else []) + [SyncAndMigrate(dir)]
  }

  /** The databases the server holds once `db_create` has run. */
  function AfterDbCreate(dbName: string, names: seq<string>): (r: seq<string>)
    ensures forall n :: n in names ==> n in r
    ensures |names| <= |r| <= |names| + 1 && r[..|names|] == names
    ensures |r| == |names| + 1 ==> r[|names|] == dbName
  {
    if NeedsCreate(dbName, Listing(names)) then names + [dbName] else names
  }

  /** After `db_create` the database is listed; running it again issues no
      CREATE, leaves the databases as they are, and still runs the migrations. */
  lemma {:induction false} DbCreateIdempotent(dbName: string, names: seq<string>, dir: string)
    requires '\n' !in dbName
    requires NoneContains(names, '\n')
    ensures var after := AfterDbCreate(dbName, names);
      && !NeedsCreate(dbName, Listing(after))
      && DbCreateSteps(dbName, after, dir) == [ListDatabases, SyncAndMigrate(dir)]
      && AfterDbCreate(dbName, after) == after
  {
    var after := AfterDbCreate(dbName, names);
    assert NoneContains(after, '\n');
    NeedsCreateIffAbsent(dbName, names);
    NeedsCreateIffAbsent(dbName, after);
    if NeedsCreate(dbName, Listing(names)) {
      assert after[|after| - 1] == dbName;
    }
  }

  /** What db_create does to a host: once its steps complete, the server
      holds the databases `AfterDbCreate` names and nothing else changed. */
  lemma {:induction false} DbCreateEffect(dbName: string, dir: string, h: Host, w: World)
    ensures var o := Execute(DbCreateSteps(dbName, h.databases, dir), h, w);
      o.status.Completed? ==> o.host == h.(databases := AfterDbCreate(dbName, h.databases))
  {
    if NeedsCreate(dbName, Listing(h.databases)) {
      assert DbCreateSteps(dbName, h.databases, dir) == [ListDatabases, CreateDatabase(dbName), SyncAndMigrate(dir)];
      CreatingRun(dbName, dir, h, w);
    } else {
      assert DbCreateSteps(dbName, h.databases, dir) == [ListDatabases, SyncAndMigrate(dir)];
      ListingRun(dir, h, w);
    }
  }

  lemma {:induction false} CreatingRun(dbName: string, dir: string, h: Host, w: World)
    ensures var o := Execute([ListDatabases, CreateDatabase(dbName), SyncAndMigrate(dir)], h, w);
      o.status.Completed? ==> o.host == h.(databases := h.databases + [dbName])
  {
    CompletedThree(ListDatabases, CreateDatabase(dbName), SyncAndMigrate(dir), h, w);
    var h2 := h.(databases := h.databases + [dbName]);
    assert Apply(h, ListDatabases, w) == h;
    assert Apply(h, CreateDatabase(dbName), w) == h2;
    assert Apply(h2, SyncAndMigrate(dir), w) == h2;
  }

  /** Listing and migrating never change the host, however they end. */
  lemma {:induction false} ListingRun(dir: string, h: Host, w: World)
    ensures Execute([ListDatabases, SyncAndMigrate(dir)], h, w).host == h
  {
    var plan := [ListDatabases, SyncAndMigrate(dir)];
    assert plan[1..] == [SyncAndMigrate(dir)];
    assert [SyncAndMigrate(dir)][1..] == [];
    assert Execute([SyncAndMigrate(dir)], h, w).host == h;
  }

  /** db_create completes exactly when none of its commands breaks and its
      migrations find a Django project in the directory they run in; the
      listing and the CREATE need nothing else. */
  lemma {:induction false} DbCreateCompletes(dbName: string, names: seq<string>, dir: string, h: Host, w: World)
    ensures Execute(DbCreateSteps(dbName, names, dir), h, w).status.Completed?
        <==> HoldsProject(h, w, dir) && forall s :: s in DbCreateSteps(dbName, names, dir) ==> s !in w.broken
  {
    if NeedsCreate(dbName, Listing(names)) {
      assert DbCreateSteps(dbName, names, dir) == [ListDatabases, CreateDatabase(dbName), SyncAndMigrate(dir)];
      CreatingCompletes(dbName, dir, h, w);
    } else {
      assert DbCreateSteps(dbName, names, dir) == [ListDatabases, SyncAndMigrate(dir)];
      ListingCompletes(dir, h, w);
    }
  }

  lemma {:induction false} CreatingCompletes(dbName: string, dir: string, h: Host, w: World)
    ensures var plan := [ListDatabases, CreateDatabase(dbName), SyncAndMigrate(dir)];
      Execute(plan, h, w).status.Completed? <==> HoldsProject(h, w, dir) && forall s :: s in plan ==> s !in w.broken
  {
    var c, sync := CreateDatabase(dbName), SyncAndMigrate(dir);
    var h2 := h.(databases := h.databases + [dbName]);
    assert Apply(h, ListDatabases, w) == h && Apply(h, c, w) == h2;
    assert Fails(h, ListDatabases, w) <==> ListDatabases in w.broken;
    assert Fails(h, c, w) <==> c in w.broken;
    assert Fails(h2, sync, w) <==> !HoldsProject(h, w, dir) || sync in w.broken;
    assert [ListDatabases, c, sync] == [ListDatabases] + ([c] + ([sync] + []));
    ExecuteCons(ListDatabases, [c] + ([sync] + []), h, w);
    ExecuteCons(c, [sync] + [], h, w);
    ExecuteCons(sync, [], h2, w);
  }

  lemma {:induction false} ListingCompletes(dir: string, h: Host, w: World)
    ensures var plan := [ListDatabases, SyncAndMigrate(dir)];
      Execute(plan, h, w).status.Completed? <==> HoldsProject(h, w, dir) && forall s :: s in plan ==> s !in w.broken
  {
    var sync := SyncAndMigrate(dir);
    assert Apply(h, ListDatabases, w) == h;
    assert Fails(h, ListDatabases, w) <==> ListDatabases in w.broken;
    assert Fails(h, sync, w) <==> !HoldsProject(h, w, dir) || sync in w.broken;
    assert [ListDatabases, sync] == [ListDatabases] + ([sync] + []);
    ExecuteCons(ListDatabases, [sync] + [], h, w);
    ExecuteCons(sync, [], h, w);
  }

  /** Running db_create again on the host a completed run left behind issues
      no CREATE and changes nothing, however that second run ends. */
  lemma {:induction false} DbCreateRerunChangesNothing(dbName: string, dir: string, h: Host, w: World)
    requires '\n' !in dbName
    requires NoneContains(h.databases, '\n')
    requires Execute(DbCreateSteps(dbName, h.databases, dir), h, w).status.Completed?
    ensures var h1 := Execute(DbCreateSteps(dbName, h.databases, dir), h, w).host;
      && CreateDatabase(dbName) !in DbCreateSteps(dbName, h1.databases, dir)
      && Execute(DbCreateSteps(dbName, h1.databases, dir), h1, w).host == h1
  {
    DbCreateEffect(dbName, dir, h, w);
    DbCreateIdempotent(dbName, h.databases, dir);
    var h1 := Execute(DbCreateSteps(dbName, h.databases, dir), h, w).host;
    ListingRun(dir, h1, w);
  }
}

=== FILE: environment.dfy ===
/** The Fabric `env` of one invocation (fabfile.py:40-131): the module-level
    defaults, the `live` and `dev` presets, the option tasks given on the command
    line before the action, and `init`, which loads the settings and derives the
    version identifier and paths. */
module Environment {
  import opened Wrappers
  import opened Strings
  import Version

  datatype Env = Env(
    envName: Option<string>,        // env.env, set only by a preset
    appRoot: string,
    project: string,
    branch: string,
    revision: Option<string>,       // rev:<hash>
    useLocales: bool,
    backup: bool,
    sendEmail: bool,
    force: bool,
    wsgiScript: Option<string>,
    runserverPort: Option<int>,
    pidfile: Option<string>,
    timestamp: Option<string>)      // set only when given with `--set timestamp=...`

  /** The values the script assigns at import time (fabfile.py:41-68). */
  const Defaults: Env := Env(
    envName := None, appRoot := "", project := "example", branch := "master", revision := None,
    useLocales := true, backup := true, sendEmail := false, force := false,
    wsgiScript := None, runserverPort := None, pidfile := None, timestamp := None)

  /** `env.github_link` (fabfile.py:70), fixed at import time. */
  const GithubLink: string := "https://github.com/example/example"

  /** `os.path.join(a, b)` for a relative `b`. */
  function PathJoin(a: string, b: string): string
  {
    if a == [] || a[|a| - 1] == '/' then a + b else a + "/" + b
  }

  /** The `live` preset (fabfile.py:74-84). */
  function Live(e: Env): Env
  {
    e.(envName := Some("live"), appRoot := "/home/www-data/example.com", sendEmail := true,
       wsgiScript := Some("wsgi/example.com.wsgi"))
  }

  /** The `dev` preset (fabfile.py:86-91); the pidfile is joined onto the new root. */
  function Dev(e: Env): Env
  {
    var root := "/home/www-data/dev.example.com";
    e.(envName := Some("dev"), appRoot := root, runserverPort := Some(8001), sendEmail := false,
       pidfile := Some(PathJoin(root, "server.pid")))
  }

  /** Python truthiness of `env.runserver_port`: `None` and `0` are false. */
  predicate PortSet(p: Option<int>)
  {
    p.Some? && p.value != 0
  }

  /** The guard of fabfile.py:312: the server is killed and restarted only when
      both a pidfile and a port are configured. */
  predicate ManagesServer(e: Env)
  {
    Truthy(e.pidfile) && PortSet(e.runserverPort)
  }

  /** The `dev` preset configures a managed server whatever came before it. */
  lemma {:induction false} DevManagesServer(e: Env)
    ensures ManagesServer(Dev(e))
    ensures !Truthy(Dev(e).wsgiScript) <==> !Truthy(e.wsgiScript)
  {
    assert PathJoin("/home/www-data/dev.example.com", "server.pid") != "";
  }

  /** The `live` preset links a WSGI script and, on its own, manages no server. */
  lemma {:induction false} LiveLinksWsgiOnly()
    ensures Truthy(Live(Defaults).wsgiScript)
    ensures !ManagesServer(Live(Defaults))
    ensures !Truthy(Dev(Defaults).wsgiScript)
  {
  }

  /** The tasks that can precede the action on the command line. */
  datatype Task = LiveTask | DevTask | NoBackup | Rev(ref: string) | Branch(name: string) | Email | Force

  /** The `@runs_once` tasks (fabfile.py:98-115): a second call of the same
      task, whatever its argument, does nothing. */
  datatype OnceKey = RevKey | BranchKey | EmailKey | ForceKey

  function Key(t: Task): Option<OnceKey>
  {
    match t
    case Rev(_) => Some(RevKey)
    case Branch(_) => Some(BranchKey)
    case Email => Some(EmailKey)
    case Force => Some(ForceKey)
    case _ => None
  }

  function ApplyTask(e: Env, t: Task): Env
  {
    match t
    case LiveTask => Live(e)
    case DevTask => Dev(e)
    case NoBackup => e.(backup := false)
    case Rev(r) => e.(revision := Some(r))
    case Branch(b) => e.(branch := b)
    case Email => e.(sendEmail := true)
    case Force => e.(force := true)
  }

  /** Runs the tasks in command-line order; `ran` holds the run-once tasks that
      have already run. */
  function ApplyTasks(e: Env, ran: set<OnceKey>, ts: seq<Task>): Env
    decreases |ts|
  {
    if ts == [] then e
    else
      var k := Key(ts[0]);
      if k.Some? && k.value in ran then ApplyTasks(e, ran, ts[1..])
      else ApplyTasks(ApplyTask(e, ts[0]), if k.Some? then ran + {k.value} else ran, ts[1..])
  }

  /** The environment after the command line's option tasks. */
  function FromCommandLine(ts: seq<Task>): Env
  {
    ApplyTasks(Defaults, {}, ts)
  }

  lemma {:induction false} ForceFrom(e: Env, ran: set<OnceKey>, ts: seq<Task>)
    requires ForceKey in ran ==> e.force
    ensures ApplyTasks(e, ran, ts).force <==> e.force || Force in ts
    decreases |ts|
  {
    if ts != [] {
      var k := Key(ts[0]);
      if k.Some? && k.value in ran {
        ForceFrom(e, ran, ts[1..]);
      } else {
        ForceFrom(ApplyTask(e, ts[0]), if k.Some? then ran + {k.value} else ran, ts[1..]);
      }
      assert ts == [ts[0]] + ts[1..];
    }
  }

  /** `force` is on exactly when the `force` task was given (fabfile.py:68, 111-112). */
  lemma {:induction false} ForceIffRequested(ts: seq<Task>)
    ensures FromCommandLine(ts).force <==> Force in ts
  {
    ForceFrom(Defaults, {}, ts);
  }

  lemma {:induction false} BackupFrom(e: Env, ran: set<OnceKey>, ts: seq<Task>)
    ensures !ApplyTasks(e, ran, ts).backup <==> !e.backup || NoBackup in ts
    decreases |ts|
  {
    if ts != [] {
      var k := Key(ts[0]);
      if k.Some? && k.value in ran {
        BackupFrom(e, ran, ts[1..]);
      } else {
        BackupFrom(ApplyTask(e, ts[0]), if k.Some? then ran + {k.value} else ran, ts[1..]);
      }
      assert ts == [ts[0]] + ts[1..];
    }
  }

  /** Backups are on unless `nobackup` was given, and nothing turns them back on
      (fabfile.py:60, 95-96). */
  lemma {:induction false} BackupUnlessNoBackup(ts: seq<Task>)
    ensures !FromCommandLine(ts).backup <==> NoBackup in ts
  {
    BackupFrom(Defaults, {}, ts);
  }

  /** The argument of the first `rev` task, if any. */
  function FirstRev(ts: seq<Task>): Option<string>
  {
    if ts == [] then None else if ts[0].Rev? then Some(ts[0].ref) else FirstRev(ts[1..])
  }

  lemma {:induction false} RevisionFrom(e: Env, ran: set<OnceKey>, ts: seq<Task>)
    ensures ApplyTasks(e, ran, ts).revision
         == if RevKey in ran || FirstRev(ts).None? then e.revision else FirstRev(ts)
    decreases |ts|
  {
    if ts != [] {
      var k := Key(ts[0]);
      if k.Some? && k.value in ran {
        RevisionFrom(e, ran, ts[1..]);
      } else {
        RevisionFrom(ApplyTask(e, ts[0]), if k.Some? then ran + {k.value} else ran, ts[1..]);
      }
    }
  }

  /** Because `rev` runs once, the first `rev:<hash>` on the command line is the
      one that pins the revision; later ones are ignored (fabfile.py:98-100). */
  lemma {:induction false} FirstRevisionWins(ts: seq<Task>)
    ensures FromCommandLine(ts).revision == FirstRev(ts)
  {
    RevisionFrom(Defaults, {}, ts);
  }

  /** A preset given after `email` overrides it: `dev` switches mail off again.
      Two concrete command lines; `MailFollowsLastSetting` is the general rule. */
  lemma {:induction false} PresetAfterEmailWins()
    ensures !FromCommandLine([Email, DevTask]).sendEmail
    ensures FromCommandLine([DevTask, Email]).sendEmail
  {
    assert [Email, DevTask][1..] == [DevTask];
    assert [DevTask, Email][1..] == [Email];
  }

  /** The tasks that have run once a command line has been read, starting
      with `ran`. */
  function RanAfter(ran: set<OnceKey>, ts: seq<Task>): set<OnceKey>
    decreases |ts|
  {
    if ts == [] then ran
    else RanAfter(if Key(ts[0]).Some? then ran + {Key(ts[0]).value} else ran, ts[1..])
  }

  /** Reading one more task: a run-once task that already ran is skipped. */
  lemma {:induction false} ApplyTasksSnoc(e: Env, ran: set<OnceKey>, ts: seq<Task>, t: Task)
    ensures ApplyTasks(e, ran, ts + [t])
         == (var before := ApplyTasks(e, ran, ts);
             if Key(t).Some? && Key(t).value in RanAfter(ran, ts) then before else ApplyTask(before, t))
    decreases |ts|
  {
    if ts == [] {
      assert [t][1..] == [];
    } else {
      assert (ts + [t])[0] == ts[0];
      assert (ts + [t])[1..] == ts[1..] + [t];
      var k := Key(ts[0]);
      if k.Some? && k.value in ran {
        assert ran + {k.value} == ran;
        ApplyTasksSnoc(e, ran, ts[1..], t);
      } else {
        ApplyTasksSnoc(ApplyTask(e, ts[0]), if k.Some? then ran + {k.value} else ran, ts[1..], t);
      }
    }
  }

  /** `email` has run exactly when it ran before or appears on the line. */
  lemma {:induction false} EmailRan(ran: set<OnceKey>, ts: seq<Task>)
    ensures EmailKey in RanAfter(ran, ts) <==> EmailKey in ran || Email in ts
    decreases |ts|
  {
    if ts != [] {
      var k := Key(ts[0]);
      EmailRan(if k.Some? then ran + {k.value} else ran, ts[1..]);
      assert ts == [ts[0]] + ts[1..];
    }
  }

  /** The mail setting a command line asks for, read from its end: the last
      `live` (on), `dev` (off) or first `email` (on) decides, and with none of
      them mail stays off. */
  function MailWanted(ts: seq<Task>): bool
    decreases |ts|
  {
    if ts == [] then false
    else
      var t := ts[|ts| - 1];
      var init := ts[..|ts| - 1];
      if t == LiveTask then true
      else if t == DevTask then false
      else if t == Email && Email !in init then true
      else MailWanted(init)
  }

  /** The report is mailed as the last deciding task says (fabfile.py:61,
      74-91, 106-108): a later preset overrides `email`, and a second `email`
      does nothing. */
  lemma {:induction false} MailFollowsLastSetting(ts: seq<Task>)
    ensures FromCommandLine(ts).sendEmail == MailWanted(ts)
    decreases |ts|
  {
    if ts != [] {
      var init := ts[..|ts| - 1];
      var t := ts[|ts| - 1];
      assert ts == init + [t];
      ApplyTasksSnoc(Defaults, {}, init, t);
      EmailRan({}, init);
      MailFollowsLastSetting(init);
    }
  }

  /** Only the presets name an environment. */
  lemma {:induction false} EnvNameFrom(e: Env, ran: set<OnceKey>, ts: seq<Task>)
    requires LiveTask !in ts && DevTask !in ts
    ensures ApplyTasks(e, ran, ts).envName == e.envName
    decreases |ts|
  {
    if ts != [] {
      assert ts[0] in ts;
      assert forall t :: t in ts[1..] ==> t in ts;
      var k := Key(ts[0]);
      if k.Some? && k.value in ran {
        EnvNameFrom(e, ran, ts[1..]);
      } else {
        EnvNameFrom(ApplyTask(e, ts[0]), if k.Some? then ran + {k.value} else ran, ts[1..]);
      }
    }
  }

  /** Without `live` or `dev` on the command line no environment is named. */
  lemma {:induction false} NoPresetNoEnvironment(ts: seq<Task>)
    requires LiveTask !in ts && DevTask !in ts
    ensures FromCommandLine(ts).envName.None?
  {
    EnvNameFrom(Defaults, {}, ts);
  }

  /** The database settings `init` reads from `settings_<env>` (fabfile.py:123-126). */
  datatype Settings = Settings(dbName: string, testDbName: string, dbUser: string, dbPassword: string)

  datatype ConfigError =
    | NoEnvironment               // no preset ran, so `%(env)s` has no value
    | MissingSettings(name: string) // `import settings_<name>` fails

  /** What `init` derives for the rest of the run. */
  datatype Context = Context(
    env: Env, settings: Settings, timestamp: string,
    versionDir: string, versionPath: string, appPath: string, virtualenv: string)

  /** `init` (fabfile.py:118-131). `registry` maps an environment name to its
      settings module; `clock` is what `date` prints on the host. */
  function Init(e: Env, registry: map<string, Settings>, clock: string): (r: Result<Context, ConfigError>)
    ensures r.Success? <==> e.envName.Some? && e.envName.value in registry
    ensures e.envName.None? ==> r == Failure(NoEnvironment)
    ensures r.Success? ==> r.value.env == e && r.value.settings == registry[e.envName.value]
    ensures r.Success? ==> r.value.timestamp == (if e.timestamp.Some? then e.timestamp.value else clock)
    ensures r.Success? ==> '-' !in r.value.versionDir && ':' !in r.value.versionDir && ' ' !in r.value.versionDir
    ensures r.Success? ==> StartsWith(r.value.versionPath, e.appRoot + "/")
    ensures r.Success? ==> r.value.versionPath != r.value.appPath
    ensures r.Success? ==> r.value.versionDir == Version.VersionDir(r.value.timestamp)
    ensures r.Success? ==> r.value.versionPath == Version.VersionPath(e.appRoot, r.value.versionDir, e.project)
    ensures r.Success? ==> r.value.appPath == Version.AppPath(e.appRoot, e.project)
    ensures r.Success? ==> r.value.virtualenv == Version.VirtualenvPath(e.appRoot)
  {
    if e.envName.None? then Failure(NoEnvironment)
    else if e.envName.value !in registry then Failure(MissingSettings(e.envName.value))
    else
      var ts := if e.timestamp.Some? then e.timestamp.value else clock;
      var vd := Version.VersionDir(ts);
      Success(Context(e, registry[e.envName.value], ts, vd,
                      Version.VersionPath(e.appRoot, vd, e.project),
                      Version.AppPath(e.appRoot, e.project),
                      Version.VirtualenvPath(e.appRoot)))
  }

  /** Two runs whose `date` calls print different seconds get different
      release directories, however the rest of the environment looks. */
  lemma {:induction false} InitSeparatesRuns(e: Env, registry: map<string, Settings>, c1: string, c2: string)
    requires e.timestamp.None?
    requires Version.IsTimestamp(c1) && Version.IsTimestamp(c2) && c1 != c2
    requires e.envName.Some? && e.envName.value in registry
    ensures Init(e, registry, c1).value.versionPath != Init(e, registry, c2).value.versionPath
  {
    Version.DistinctTimestampsDistinctReleases(e.appRoot, e.project, c1, c2);
  }
}

=== FILE: git.dfy ===
/** The answers the script reads from git (fabfile.py:174-210, 242): the commits
    of a linear branch history, oldest first, and what `git log` prints for a
    revision range. Only the parts of the output the script looks at are modelled. */
module Git {
  import opened Wrappers
  import opened Strings

  /** One commit: `%ai` date, `%s` subject, `%an` author and the paths it touches. */
  datatype Commit = Commit(id: string, date: string, subject: string, author: string, files: set<string>)

  /** Where the commit named `ref` sits in the history; `None` when git would
      reject the name as an unknown revision. */
  function Find(h: seq<Commit>, ref: string): (r: Option<nat>)
    ensures r.Some? ==> r.value < |h| && h[r.value].id == ref
    ensures r.None? ==> forall k :: 0 <= k < |h| ==> h[k].id != ref
  {
    if h == [] then None
    else if h[0].id == ref then Some(0)
    else match Find(h[1..], ref)
      case None => None
      case Some(k) => Some(k + 1)
  }

  /** The branch tip that `git checkout -f <branch>` followed by a merge of
      the remote branch leaves in HEAD, or "" when the branch has no commit. */
  function TipId(h: seq<Commit>): string
  {
    if h == [] then "" else h[|h| - 1].id
  }

  /** Commits in `from..to` on a linear history, oldest first: those after
      position `p` up to and including position `a`. */
  function Between(h: seq<Commit>, p: nat, a: nat): seq<Commit>
    requires p < |h| && a < |h|
  {
    if p < a then h[p + 1..a + 1] else []
  }

  /** Git's own reading of `from..to`: commits that are ancestors of `to` (or
      `to` itself) but not of `from`. On a linear history position `k` is an
      ancestor of position `a` exactly when `k <= a`. This collects them from
      position `k` on, in history order. */
  function Ancestry(h: seq<Commit>, p: nat, a: nat, k: nat): seq<Commit>
    requires k <= |h|
    decreases |h| - k
  {
    if k == |h| then []
    else (if k <= a && !(k <= p) then [h[k]] else []) + Ancestry(h, p, a, k + 1)
  }

  lemma {:induction false} AncestryFrom(h: seq<Commit>, p: nat, a: nat, k: nat)
    requires p < |h| && a < |h| && k <= |h|
    ensures Ancestry(h, p, a, k) == (var lo := if k <= p then p + 1 else k; if lo <= a then h[lo..a + 1] else [])
    decreases |h| - k
  {
    if k < |h| {
      AncestryFrom(h, p, a, k + 1);
      if p < k <= a {
        assert [h[k]] + h[k + 1..a + 1] == h[k..a + 1];
      }
    }
  }

  /** The slice `Between` is exactly git's ancestry reading of the range, in
      chronological order: nothing at or before `from`, everything after it up
      to and including `to`. */
  lemma {:induction false} BetweenIsAncestry(h: seq<Commit>, p: nat, a: nat)
    requires p < |h| && a < |h|
    ensures Between(h, p, a) == Ancestry(h, p, a, 0)
  {
    AncestryFrom(h, p, a, 0);
  }

  /** `git log --reverse from..to`: the commits of the range oldest first, or
      `None` when either name is unknown to git. */
  function RangeLog(h: seq<Commit>, from: string, to: string): (r: Option<seq<Commit>>)
    ensures r.Some? <==> Find(h, from).Some? && Find(h, to).Some?
  {
    match (Find(h, from), Find(h, to))
    case (Some(p), Some(a)) => Some(Between(h, p, a))
    case _ => None
  }

  /** `git log -1 ref`: the commit `ref` names, or `None` when it is unknown. */
  function SingleLog(h: seq<Commit>, ref: string): (r: Option<seq<Commit>>)
    ensures r.Some? ==> |r.value| == 1 && r.value[0].id == ref
    ensures r.None? <==> Find(h, ref).None?
  {
    match Find(h, ref)
    case Some(k) => Some([h[k]])
    case None => None
  }

  /** One line of `--format='%ai %s / %an'`. */
  function LogLine(c: Commit): string
  {
    c.date + " " + c.subject + " / " + c.author
  }

  function LogLines(cs: seq<Commit>): seq<string>
  {
    seq(|cs|, i requires 0 <= i < |cs| => LogLine(cs[i]))
  }

  /** One entry of `git log` in its default format, abridged: it always starts
      with the word `commit`. */
  function Entry(c: Commit): string
  {
    "commit " + c.id + "\nAuthor: " + c.author + "\nDate:   " + c.date + "\n\n    " + c.subject + "\n"
  }

  /** `git log from..to -- path` in git's default format, newest first: the
      entries of the commits of `cs` that touch `path`. */
  function PathLogText(cs: seq<Commit>, path: string): string
  {
    if cs == [] then ""
    else PathLogText(cs[1..], path) + (if path in cs[0].files then Entry(cs[0]) else "")
  }

  predicate Touches(cs: seq<Commit>, path: string)
  {
    exists i :: 0 <= i < |cs| && path in cs[i].files
  }

  lemma {:induction false} PathLogEmpty(cs: seq<Commit>, path: string)
    ensures PathLogText(cs, path) == "" <==> !Touches(cs, path)
    decreases |cs|
  {
    if cs != [] {
      PathLogEmpty(cs[1..], path);
      if Touches(cs[1..], path) {
        var i :| 0 <= i < |cs[1..]| && path in cs[1..][i].files;
        assert path in cs[i + 1].files;
      }
      if Touches(cs, path) && path !in cs[0].files {
        var i :| 0 <= i < |cs| && path in cs[i].files;
        assert i > 0 && path in cs[1..][i - 1].files;
      }
    }
  }

  lemma {:induction false} PathLogMentionsCommitIfTouched(cs: seq<Commit>, path: string)
    requires Touches(cs, path)
    ensures Contains(PathLogText(cs, path), "commit")
    decreases |cs|
  {
    if path in cs[0].files {
      var e := Entry(cs[0]);
      assert StartsWith(e, "commit");
      ContainsAfterPrefix(PathLogText(cs[1..], path), e, "commit");
    } else {
      var i :| 0 <= i < |cs| && path in cs[i].files;
      assert i > 0 && path in cs[1..][i - 1].files;
      PathLogMentionsCommitIfTouched(cs[1..], path);
      var t := PathLogText(cs[1..], path);
      assert PathLogText(cs, path) == t + "";
      assert t + "" == t;
    }
  }

  /** The substring test `'commit' in output` of fabfile.py:242 holds exactly
      when some commit of the range touches the path. */
  lemma {:induction false} PathLogMentionsCommit(cs: seq<Commit>, path: string)
    ensures Contains(PathLogText(cs, path), "commit") <==> Touches(cs, path)
  {
    PathLogEmpty(cs, path);
    if Touches(cs, path) {
      PathLogMentionsCommitIfTouched(cs, path);
    } else {
      EmptyContainsNothing("commit");
    }
  }
}

=== FILE: guarantees.dfy ===
/** What running the actions does to the target host: the safety promises of
    deploy and setup, stated on the outcome of `Execute` rather than on the
    plans alone. */
module Guarantees {
  import opened Wrappers
  import opened Strings
  import opened Git
  import opened Steps
  import opened Remote
  import opened Environment
  import opened Pipeline
  import opened Revision
  import opened Database
  import Version

  /** A deploy whose migration dry-run fails stops there: only the helpers
      before it ran, so nothing was compiled, dumped or migrated, the live link
      still points where it did, the server was not touched and no report was
      sent (fabfile.py:383 calls test_migration before any of them). */
  lemma {:induction false} DryRunFailureStopsDeploy(ctx: Context, h: Host, w: World)
    requires MigrationDryRun in w.broken
    ensures var o := Execute(DeployPlan(ctx, h, w), h, w);
      && o.status.Aborted?
      && (forall s :: s in o.trace ==> s == MigrationDryRun || s in Expand(Preparation(ctx.env), ctx, h, w))
      && (forall s :: s in o.trace ==> !Destructive(s) && !s.CompileCatalogs? && !s.LinkWsgi? && !s.MailReport?)
      && o.host.appLink == h.appLink
      && o.host.backups == h.backups
  {
    DryRunPrecedesDestructiveSteps(ctx, h, w);
    var pre := Expand(Preparation(ctx.env), ctx, h, w);
    var rest := Expand(Release(ctx.env), ctx, h, w);
    FailingStepStops(pre, MigrationDryRun, rest, h, w);
    PointerMovesOnlyByLinkSwap(pre, h, w);
    BackupsOnlyByBackup(pre, h, w);
  }

  /** In every deploy run, however it ends, each destructive step that ran was
      preceded by the migration dry-run, and the run up to and including that
      dry-run completed: the dry-run succeeded. */
  lemma {:induction false} DestructiveStepsFollowDryRun(ctx: Context, h: Host, w: World)
    ensures var plan := DeployPlan(ctx, h, w);
      var t := Execute(plan, h, w).trace;
      forall i :: 0 <= i < |t| && Destructive(t[i]) ==>
        exists j :: 0 <= j < i && t[j] == MigrationDryRun && Execute(plan[..j + 1], h, w).status.Completed?
  {
    DryRunPrecedesDestructiveSteps(ctx, h, w);
    var pre := Expand(Preparation(ctx.env), ctx, h, w);
    var rest := Expand(Release(ctx.env), ctx, h, w);
    var plan := DeployPlan(ctx, h, w);
    var t := Execute(plan, h, w).trace;
    forall i | 0 <= i < |t| && Destructive(t[i])
      ensures exists j :: 0 <= j < i && t[j] == MigrationDryRun && Execute(plan[..j + 1], h, w).status.Completed?
    {
      assert t[i] == plan[i];
      DryRunBeforeIndex(ctx, h, w, i);
      assert t[|pre|] == plan[|pre|];
      RanPastCompletes(plan, |pre| + 1, h, w);
    }
  }

  /** A destructive step of deploy's plan lies past the dry-run. */
  lemma {:induction false} DryRunBeforeIndex(ctx: Context, h: Host, w: World, i: nat)
    requires i < |DeployPlan(ctx, h, w)| && Destructive(DeployPlan(ctx, h, w)[i])
    ensures var pre := Expand(Preparation(ctx.env), ctx, h, w);
      |pre| < i && DeployPlan(ctx, h, w)[|pre|] == MigrationDryRun
  {
    DryRunPrecedesDestructiveSteps(ctx, h, w);
    var pre := Expand(Preparation(ctx.env), ctx, h, w);
    assert DeployPlan(ctx, h, w)[i] != MigrationDryRun;
  }

  /** Without `force`, uncommitted changes in the live checkout stop deploy at
      its first check, before anything on the host has changed
      (fabfile.py:367-370, 378-379). */
  lemma {:induction false} LocalChangesBlockDeploy(ctx: Context, h: Host, w: World)
    requires !ctx.env.force && w.liveChanges
    ensures var o := Execute(DeployPlan(ctx, h, w), h, w);
      && o.status.Aborted?
      && o.host == h
      && forall s :: s in o.trace ==> s.ReadClock? || s.CheckLocalChanges?
  {
    DeployChecksFirst(ctx, h, w);
    var init := InitSteps(ctx.env);
    var rest := [RecheckLocalChanges] + Expand(ChecksThenRest(ctx.env), ctx, h, w);
    BlockedAfterInert(init, CheckLocalChanges, rest, h, w);
  }

  /** With backups switched off deploy dumps nothing; with them on, a deploy
      that completes leaves this release's dump among the backups
      (fabfile.py:385-386, 247-250). */
  lemma {:induction false} BackupFollowsSetting(ctx: Context, h: Host, w: World)
    ensures var o := Execute(DeployPlan(ctx, h, w), h, w);
      var file := Version.BackupFile(ctx.env.appRoot, ctx.versionDir);
      && (!ctx.env.backup ==> o.host.backups == h.backups)
      && (ctx.env.backup && o.status.Completed? ==> file in o.host.backups)
  {
    var plan := DeployPlan(ctx, h, w);
    var file := Version.BackupFile(ctx.env.appRoot, ctx.versionDir);
    DeployBacksUpWhenEnabled(ctx, h, w);
    if !ctx.env.backup {
      forall s | s in plan ensures !s.Backup? {
        assert s.Backup? ==> s == Backup(file);
      }
      BackupsOnlyByBackup(plan, h, w);
    } else if Execute(plan, h, w).status.Completed? {
      BackupTaken(plan, h, w, file);
    }
  }

  /** A deploy to a host with nothing at the app path never completes and
      never makes the link. Unless a commit is named `None`, the requirements
      query stops it before the dry-run (fabfile.py:242); in any case the
      `chmod` of the old release would fail (fabfile.py:279-281). */
  lemma {:induction false} FirstDeployNeverCompletes(ctx: Context, h: Host, w: World)
    requires h.appLink.None?
    ensures var o := Execute(DeployPlan(ctx, h, w), h, w);
      && o.status.Aborted?
      && o.host.appLink.None?
      && (forall s :: s in o.trace ==> !s.LinkSwap?)
      && ((forall k :: 0 <= k < |w.history| ==> w.history[k].id != "None")
          ==> forall s :: s in o.trace ==> !Destructive(s) && s != MigrationDryRun)
  {
    if forall k :: 0 <= k < |w.history| ==> w.history[k].id != "None" {
      NoPreviousRevisionStopsDeploy(ctx, h, w);
    }
    DeployLinkSplit(ctx, h, w);
    NoLinkBefore(ctx, h, w);
    var before := Expand(BeforeLink(ctx.env), ctx, h, w);
    var after := [LinkSwap(ctx.versionPath)] + Expand(AfterLink(ctx.env), ctx, h, w);
    PointerMovesOnlyByLinkSwap(before, h, w);
    FailingStepStops(before, RevokeOldRelease, after, h, w);
  }

  /** setup on a host that already has the repository stops at `git clone`,
      having changed nothing (fabfile.py:215-219). */
  lemma {:induction false} SetupNotRerunnable(ctx: Context, h: Host, w: World)
    requires h.cloned
    ensures var o := Execute(SetupPlan(ctx, h, w), h, w);
      && o.status.Aborted?
      && o.host == h
      && forall s :: s in o.trace ==> Inert(s) || s == CloneRepository
  {
    SetupClonesEarly(ctx, h, w);
    var opening := Expand([InitTimestamp, MakeDirs], ctx, h, w);
    var rest :| SetupPlan(ctx, h, w) == opening + [CloneRepository] + rest;
    BlockedAfterInert(opening, CloneRepository, rest, h, w);
  }

  /** As written, setup makes no release live unless the login directory
      happens to hold a Django project: db_create runs its migrations there,
      with no `cd` (fabfile.py:159-162), so the run stops at them or earlier,
      before `link_to_current` (fabfile.py:144-145), and the app path stays
      where it was. */
  lemma {:induction false} SetupStopsAtMigrations(ctx: Context, h: Host, w: World)
    requires !w.loginDirProject
    ensures var o := Execute(SetupPlan(ctx, h, w), h, w);
      && o.status.Aborted?
      && LinkSwap(ctx.versionPath) !in o.trace
      && o.host.appLink == h.appLink
  {
    SetupEndsWithMigrations(ctx, h, w);
    var before :| SetupPlan(ctx, h, w) == before + [SyncAndMigrate(LoginDir)] + [LinkSwap(ctx.versionPath)]
      && forall s :: s in before ==> !s.LinkSwap?;
    FailureBeforeLinkKeepsPointer(before, SyncAndMigrate(LoginDir), [LinkSwap(ctx.versionPath)], h, w);
  }

  /** With db_create's migrations run in the new release, as evidently
      intended, they find the project that setup's checkout put there: once
      the helpers before db_create have completed, db_create completes exactly
      when none of its commands breaks, whatever the login directory holds.
      (A release lies under the application root, never in the login
      directory itself.) */
  lemma {:induction false} IntendedDbCreateFindsRelease(ctx: Context, h: Host, w: World)
    requires ctx.versionPath != LoginDir
    ensures var o := Execute(Expand(SetupBeforeDb, ctx, h, w), h, w);
      var d := DbCreateSteps(ctx.settings.dbName, h.databases, ctx.versionPath);
      o.status.Completed? ==> (Execute(d, o.host, w).status.Completed? <==> forall s :: s in d ==> s !in w.broken)
  {
    var a := Expand(SetupBeforeDb, ctx, h, w);
    var o := Execute(a, h, w);
    if o.status.Completed? {
      SetupMakesRelease(ctx, h, w);
      ReleaseMade(a, h, w, ctx.versionPath);
      DbCreateCompletes(ctx.settings.dbName, h.databases, ctx.versionPath, o.host, w);
    }
  }

  /** Conditions under which nothing outside the script stops a deploy: the
      host has its repository and a live release whose HEAD git reports, no
      command breaks, both checkouts are clean, and the revisions the git
      commands name exist. */
  predicate Smooth(ctx: Context, h: Host, w: World)
  {
    && Ready(h)
    && w.broken == {}
    && !w.liveChanges
    && !w.loginDirChanges
    && w.history != []
    && (Truthy(ctx.env.revision) ==> Find(w.history, ctx.env.revision.value).Some?)
    && Previous(h, w).Some?
    && RangeLog(w.history, Previous(h, w).value, ActualRevision(ctx.env, w)).Some?
  }

  /** Under those conditions no step of the deploy can fail. */
  lemma {:induction false} SmoothStepsHarmless(ctx: Context, h: Host, w: World)
    requires Smooth(ctx, h, w)
    ensures var plan := DeployPlan(ctx, h, w);
      forall i :: 0 <= i < |plan| ==> Harmless(plan[i], w)
  {
    var plan := DeployPlan(ctx, h, w);
    var ps := DeployPhases(ctx.env);
    DeployHelpers(ctx.env);
    forall i | 0 <= i < |plan| ensures Harmless(plan[i], w) {
      var s := plan[i];
      var p := Issuer(ps, s, ctx, h, w);
      PrepOwner(p, s);
    }
  }

  /** A smooth deploy completes, leaves the app path linked to the new
      release, and, with backups on, leaves this release's dump behind. */
  lemma {:induction false} SmoothDeployCompletes(ctx: Context, h: Host, w: World)
    requires Smooth(ctx, h, w)
    ensures var o := Execute(DeployPlan(ctx, h, w), h, w);
      && o.status.Completed?
      && o.host.appLink == Some(ctx.versionPath)
      && (ctx.env.backup ==> Version.BackupFile(ctx.env.appRoot, ctx.versionDir) in o.host.backups)
  {
    var plan := DeployPlan(ctx, h, w);
    SmoothStepsHarmless(ctx, h, w);
    HarmlessPlanCompletes(plan, h, w);
    LinksOnlyNewRelease(DeployAction, ctx, h, w);
    assert ActionPlan(DeployAction, ctx, h, w) == plan;
    DeployAlwaysReleases(ctx, h, w);
    LinksAllTo(plan, h, w, ctx.versionPath);
    if ctx.env.backup {
      DeployBacksUpWhenEnabled(ctx, h, w);
      BackupTaken(plan, h, w, Version.BackupFile(ctx.env.appRoot, ctx.versionDir));
    }
  }

  /** A deploy with no previous revision stops at the requirements query of
      fabfile.py:242, which names the range `None..<actual>`: nothing that
      touches the live site or the database ran, not even the dry-run. */
  lemma {:induction false} NoPreviousRevisionStopsDeploy(ctx: Context, h: Host, w: World)
    requires Previous(h, w).None?
    requires forall k :: 0 <= k < |w.history| ==> w.history[k].id != "None"
    ensures var o := Execute(DeployPlan(ctx, h, w), h, w);
      && o.status.Aborted?
      && (forall s :: s in o.trace ==> !Destructive(s) && s != MigrationDryRun)
      && o.host.appLink == h.appLink
      && o.host.backups == h.backups
  {
    var q := QueryRequirementsLog(Render(Previous(h, w)), ActualRevision(ctx.env, w));
    var a := Expand(BeforeRequirements(ctx.env), ctx, h, w);
    var rest := RequirementsSteps(ctx, h, w)[1..] + Expand([TestMigration] + Release(ctx.env), ctx, h, w);
    DeployRequirementsSplit(ctx, h, w);
    BeforeRequirementsPrepares(ctx, h, w);
    RequirementsVersionsDiffer(ctx, h, w);
    FailingStepStops(a, q, rest, h, w);
    PointerMovesOnlyByLinkSwap(a, h, w);
    BackupsOnlyByBackup(a, h, w);
  }

  /** Any deploy run that ends before link_to_current's swap, wherever it
      stopped (at the backup, the migration, the `chmod` or earlier), leaves
      the app path where it was. */
  lemma {:induction false} AbortBeforeLinkKeepsPointer(ctx: Context, h: Host, w: World)
    ensures var o := Execute(DeployPlan(ctx, h, w), h, w);
      LinkSwap(ctx.versionPath) !in o.trace ==> o.status.Aborted? && o.host.appLink == h.appLink
  {
    var plan := DeployPlan(ctx, h, w);
    var o := Execute(plan, h, w);
    if LinkSwap(ctx.versionPath) !in o.trace {
      LinksOnlyNewRelease(DeployAction, ctx, h, w);
      assert ActionPlan(DeployAction, ctx, h, w) == plan;
      TraceFromPlan(plan, h, w);
      forall s | s in o.trace ensures !s.LinkSwap? {
        assert s.LinkSwap? ==> s == LinkSwap(ctx.versionPath);
      }
      PointerKeptUntilSwap(plan, h, w);
      DeployAlwaysReleases(ctx, h, w);
    }
  }

  /** `fab <options> deploy` with `force` among the options never runs the
      local-changes checks (fabfile.py:110-112, 378-379). */
  lemma {:induction false} ForcedDeploySkipsChecks(ts: seq<Task>, registry: map<string, Settings>, h: Host, w: World)
    requires Force in ts
    ensures var r := Invoke(DeployAction, ts, registry, h, w);
      r.Ran? ==> CheckLocalChanges !in r.outcome.trace && RecheckLocalChanges !in r.outcome.trace
  {
    var r := Invoke(DeployAction, ts, registry, h, w);
    if r.Ran? {
      ForceIffRequested(ts);
      var ctx := Init(FromCommandLine(ts), registry, w.clock).value;
      var plan := DeployPlan(ctx, h, w);
      assert r.outcome == Execute(plan, h, w);
      DeployChecksUnlessForced(ctx, h, w);
      TraceFromPlan(plan, h, w);
    }
  }

  /** Without `force`, uncommitted changes in the live checkout make
      `fab <options> deploy` abort with nothing on the host changed. */
  lemma {:induction false} UnforcedDeployBlockedByChanges(ts: seq<Task>, registry: map<string, Settings>, h: Host, w: World)
    requires Force !in ts && w.liveChanges
    ensures var r := Invoke(DeployAction, ts, registry, h, w);
      r.Ran? ==> r.outcome.status.Aborted? && r.outcome.host == h
  {
    var r := Invoke(DeployAction, ts, registry, h, w);
    if r.Ran? {
      ForceIffRequested(ts);
      var ctx := Init(FromCommandLine(ts), registry, w.clock).value;
      assert r.outcome == Execute(DeployPlan(ctx, h, w), h, w);
      LocalChangesBlockDeploy(ctx, h, w);
    }
  }

  /** `fab <options> deploy` with `nobackup` among the options leaves the
      backups as they were, and a run that completes still migrated
      (fabfile.py:95-96, 385-387). */
  lemma {:induction false} NoBackupDeployKeepsBackups(ts: seq<Task>, registry: map<string, Settings>, h: Host, w: World)
    requires NoBackup in ts
    ensures var r := Invoke(DeployAction, ts, registry, h, w);
      r.Ran? ==> r.outcome.host.backups == h.backups && (r.outcome.status.Completed? ==> Migrate in r.outcome.trace)
  {
    var r := Invoke(DeployAction, ts, registry, h, w);
    if r.Ran? {
      BackupUnlessNoBackup(ts);
      var ctx := Init(FromCommandLine(ts), registry, w.clock).value;
      assert r.outcome == Execute(DeployPlan(ctx, h, w), h, w);
      BackupFollowsSetting(ctx, h, w);
      DeployAlwaysReleases(ctx, h, w);
    }
  }

  /** Without `live` or `dev`, `init` has no settings module to load, so no
      action runs a single remote step (fabfile.py:118-120). */
  lemma {:induction false} NoPresetRunsNothing(a: Action, ts: seq<Task>, registry: map<string, Settings>, h: Host, w: World)
    requires LiveTask !in ts && DevTask !in ts
    ensures Invoke(a, ts, registry, h, w) == Misconfigured(NoEnvironment)
  {
    NoPresetNoEnvironment(ts);
  }
}

=== FILE: pipeline.dfy ===
/** The actions of the deployment script as sequences of remote steps. An
    action is the list of fabfile.py helpers it calls, in order (`deploy`,
    fabfile.py:375-391; `setup`, 134-145; and the small ones); each helper
    stands for the `run` calls it makes. */
module Pipeline {
  import opened Wrappers
  import opened Strings
  import opened Git
  import opened Steps
  import opened Environment
  import opened Revision
  import opened Database
  import opened Remote
  import Version

  /** init's `date` call, made only when no timestamp was given (fabfile.py:127). */
  function InitSteps(e: Env): (r: seq<Step>)
    ensures forall s :: s in r ==> s == ReadClock
    ensures ReadClock in r <==> e.timestamp.None?
  {
    if e.timestamp.None? then [ReadClock] else []
  }

  /** `env.previous_revision` after repo_checkout's lookup. */
  function Previous(h: Host, w: World): Option<string>
  {
    PreviousAfterLookup(InitialPrevious, PreviousLookup(h, w))
  }

  /** The lookup of fabfile.py:173-179 never stops a run: whether or not
      `git rev-parse HEAD` fails, the run goes on with the next step on the
      same host, and there is a previous revision exactly when the lookup
      succeeded, namely the commit the live release has checked out. */
  lemma {:induction false} PreviousLookupTolerated(rest: seq<Step>, h: Host, w: World)
    ensures var r := Execute(rest, h, w);
      Execute([ReadPreviousRevision] + rest, h, w) == Outcome([ReadPreviousRevision] + r.trace, r.host, r.status)
    ensures Fails(h, ReadPreviousRevision, w) <==> Previous(h, w).None?
    ensures Previous(h, w).Some? ==>
      h.appLink.Some? && h.appLink.value in h.releases && Previous(h, w).value == h.releases[h.appLink.value]
  {
    ExecuteCons(ReadPreviousRevision, rest, h, w);
    PreviousRevisionFromLookup(PreviousLookup(h, w));
  }

  /** `env.actual_revision`: the pinned revision when one was given, else the
      branch tip the checkout and merge leave in HEAD. */
  function ActualRevision(e: Env, w: World): string
  {
    if Truthy(e.revision) then e.revision.value else TipId(w.history)
  }

  function ChangelogOf(ctx: Context, h: Host, w: World): Changelog
  {
    ComposeChangelog(GithubLink, w.history, Previous(h, w), ActualRevision(ctx.env, w))
  }

  predicate CheckoutStep(s: Step)
  {
    s.ReadPreviousRevision? || s.FetchRepository? || s.MaterializeRelease? || s.PinRevision?
    || s.ReadActualRevision? || s.AppendChangelog?
  }

  /** repo_checkout (fabfile.py:171-210): the previous revision, the fetch, the
      new release directory, the pinned revision if any, the actual revision,
      and the append of the changelog `lines`. */
  function CheckoutSteps(ctx: Context, lines: seq<string>): (r: seq<Step>)
    ensures forall s :: s in r ==> CheckoutStep(s)
    ensures forall s :: s in r && s.PinRevision? ==> Truthy(ctx.env.revision) && s.ref == ctx.env.revision.value
    ensures Truthy(ctx.env.revision) ==> PinRevision(ctx.versionPath, ctx.env.revision.value) in r
    ensures MaterializeRelease(ctx.versionPath) in r
    ensures forall s :: s in r && (s.MaterializeRelease? || s.PinRevision?) ==> s.dir == ctx.versionPath
  {
    [ReadPreviousRevision, FetchRepository, MaterializeRelease(ctx.versionPath)]
    + PinSteps(ctx) + [ReadActualRevision, AppendChangelog(lines)]
  }

  /** repo_checkout's `git checkout -f` of the requested revision (fabfile.py:192-195). */
  function PinSteps(ctx: Context): (r: seq<Step>)
    ensures forall s :: s in r ==> Truthy(ctx.env.revision) && s == PinRevision(ctx.versionPath, ctx.env.revision.value)
    ensures Truthy(ctx.env.revision) ==> PinRevision(ctx.versionPath, ctx.env.revision.value) in r
  {
    if Truthy(ctx.env.revision) then [PinRevision(ctx.versionPath, ctx.env.revision.value)] else []
  }

  /** The file the reinstall hands to `pip install -r`: the script first
      changes to the application root (fabfile.py:243-244), so this is not the
      release's own `requirements.txt`, whose log fabfile.py:242 inspects. */
  function RequirementsFile(e: Env): string
  {
    e.appRoot + "/requirements.txt"
  }

  /** update_requirements as written (fabfile.py:240-245): the log query
      always runs first, naming the previous revision as `%s` renders it, so
      `None` when there is none; the reinstall follows only when the
      requirements changed since a previous revision. */
  function RequirementsSteps(ctx: Context, h: Host, w: World): (r: seq<Step>)
    ensures |r| >= 1 && r[0] == QueryRequirementsLog(Render(Previous(h, w)), ActualRevision(ctx.env, w))
    ensures forall s :: s in r ==> s.QueryRequirementsLog? || s.ReinstallRequirements?
    ensures forall s :: s in r && s.QueryRequirementsLog? ==>
              s.from == Render(Previous(h, w)) && s.to == ActualRevision(ctx.env, w)
    ensures forall s :: s in r && s.ReinstallRequirements? ==> s.source == RequirementsFile(ctx.env)
    ensures ReinstallRequirements(RequirementsFile(ctx.env)) in r
        <==> RequirementsDecision(w.history, Previous(h, w), ActualRevision(ctx.env, w)) == Reinstall
  {
    var prev := Previous(h, w);
    var actual := ActualRevision(ctx.env, w);
    [QueryRequirementsLog(Render(prev), actual)]
    + (if RequirementsAsWritten(w.history, prev, actual) == Reinstall then [ReinstallRequirements(RequirementsFile(ctx.env))] else [])
  }

  /** update_requirements as evidently intended: with no previous revision
      there is nothing to compare, so no query runs. */
  function IntendedRequirementsSteps(ctx: Context, h: Host, w: World): (r: seq<Step>)
    ensures Previous(h, w).None? ==> r == []
    ensures Previous(h, w).Some? ==> r == RequirementsSteps(ctx, h, w)
  {
    if Previous(h, w).None? then [] else RequirementsSteps(ctx, h, w)
  }

  /** The two versions differ only on a first deployment, where the script's
      query names the range `None..<actual>`: git rejects it unless a commit
      is named `None`, so the script aborts where the intended version goes on
      without reinstalling. Both reinstall under the same condition. */
  lemma {:induction false} RequirementsVersionsDiffer(ctx: Context, h: Host, w: World)
    ensures Previous(h, w).None? && (forall k :: 0 <= k < |w.history| ==> w.history[k].id != "None")
        ==> Fails(h, RequirementsSteps(ctx, h, w)[0], w) && IntendedRequirementsSteps(ctx, h, w) == []
    ensures (ReinstallRequirements(RequirementsFile(ctx.env)) in RequirementsSteps(ctx, h, w))
        <==> (ReinstallRequirements(RequirementsFile(ctx.env)) in IntendedRequirementsSteps(ctx, h, w))
  {
    var actual := ActualRevision(ctx.env, w);
    if Previous(h, w).None? && (forall k :: 0 <= k < |w.history| ==> w.history[k].id != "None") {
      RequirementsAsWrittenAbortsFirstDeploy(w.history, actual);
    }
  }

  /** link_to_current (fabfile.py:276-290): the old target is made unreadable
      unless called from setup, then the app path is repointed. */
  function LinkToCurrentSteps(ctx: Context, setup: bool): (r: seq<Step>)
    ensures |r| > 0 && r[|r| - 1] == LinkSwap(ctx.versionPath)
    ensures RevokeOldRelease in r <==> !setup
    ensures forall s :: s in r ==> s == RevokeOldRelease || s == LinkSwap(ctx.versionPath)
  {
    (if !setup then [RevokeOldRelease] else []) + [LinkSwap(ctx.versionPath)]
  }

  /** What link_to_current does to the host on a deploy: it stops at the
      `chmod` having changed nothing, or else it has hidden the old release
      and pointed the app path at the new one, even when a later link of its
      script failed. It completes exactly when a release is live and neither
      script breaks. */
  lemma {:induction false} LinkToCurrentMovesLink(ctx: Context, h: Host, w: World)
    ensures var o := Execute(LinkToCurrentSteps(ctx, false), h, w);
      && (o.status.Completed? <==>
            h.appLink.Some? && RevokeOldRelease !in w.broken && LinkSwap(ctx.versionPath) !in w.broken)
      && (o.trace == [RevokeOldRelease] ==> o.status.Aborted? && o.host == h)
      && (o.trace != [RevokeOldRelease] ==>
            && h.appLink.Some?
            && o.host == h.(unreadable := h.unreadable + {h.appLink.value}, appLink := Some(ctx.versionPath)))
  {
    assert LinkToCurrentSteps(ctx, false) == [RevokeOldRelease, LinkSwap(ctx.versionPath)];
    RevokeThenLink(ctx.versionPath, h, w);
  }

  /** server_start without its `init` call (fabfile.py:309-323). */
  function ServerStartSteps(ctx: Context): (r: seq<Step>)
    ensures forall s :: s in r ==> s.LinkWsgi? || s.ResetDevCheckout? || s.RestartServer?
    ensures (exists s :: s in r && s.LinkWsgi?) <==> Truthy(ctx.env.wsgiScript)
    ensures (exists s :: s in r && s.RestartServer?) <==> ManagesServer(ctx.env)
    ensures ResetDevCheckout in r <==> ManagesServer(ctx.env) && ctx.env.envName == Some("dev")
  {
    var wsgi := if Truthy(ctx.env.wsgiScript) then [LinkWsgi(ctx.versionPath + "/" + ctx.env.wsgiScript.value)] else [];
    var server := if ManagesServer(ctx.env)
       then (if ctx.env.envName == Some("dev") then [ResetDevCheckout] else []) + [RestartServer(ctx.env.runserverPort.value)]
       else [];
    assert Truthy(ctx.env.wsgiScript) ==> wsgi[0] in wsgi + server;
    assert ManagesServer(ctx.env) ==> server[|server| - 1] in wsgi + server;
    wsgi + server
  }

  /** The helpers of fabfile.py that the actions call. */
  datatype Phase =
    | InitTimestamp                  // init: only its `date` reaches the host (118-131)
    | CheckNoLocalChanges            // 365-373
    | MakeDirs                       // setup's `mkdir -p` calls (137-140)
    | RepoSetup                      // 212-219
    | RepoCheckout                   // 170-210
    | UpdateRequirements             // 239-245
    | InstallVirtualenv(current: bool) // 226-233
    | DbCreate                       // 147-162
    | TestMigration                  // 259-262
    | CompileMessages                // 270-274
    | DoBackup                       // 247-250
    | DoMigration                    // 264-268
    | LinkToCurrent(setup: bool)     // 276-290
    | ServerStart                    // 307-323
    | SendReport                     // 326-362
    | DoTest                         // 252-257

  /** The steps helper `p` runs. The listing `db_create` reads and the revision
      `repo_checkout` looks up are those of `h`, the host the action starts on:
      no earlier step of any action changes them. */
  function PhaseSteps(p: Phase, ctx: Context, h: Host, w: World): seq<Step>
  {
    match p
    case InitTimestamp => InitSteps(ctx.env)
    case CheckNoLocalChanges => [CheckLocalChanges, RecheckLocalChanges]
    case MakeDirs =>
      var root := ctx.env.appRoot;
      [MakeDir(root), MakeDir(root + "/backups"), MakeDir(root + "/upload"), MakeDir(root + "/log")]
    case RepoSetup => [CloneRepository]
    case RepoCheckout => CheckoutSteps(ctx, ChangelogOf(ctx, h, w).appended)
    case UpdateRequirements => RequirementsSteps(ctx, h, w)
    case InstallVirtualenv(current) => [BuildVirtualenv(if current then ctx.appPath else ctx.versionPath)]
    case DbCreate => DbCreateSteps(ctx.settings.dbName, h.databases, LoginDir)
    case TestMigration => [MigrationDryRun]
    case CompileMessages => if ctx.env.useLocales then [CompileCatalogs] else []
    case DoBackup => [Backup(Version.BackupFile(ctx.env.appRoot, ctx.versionDir))]
    case DoMigration => [Migrate]
    case LinkToCurrent(setup) => LinkToCurrentSteps(ctx, setup)
    case ServerStart => ServerStartSteps(ctx)
    case SendReport => [MailReport]
    case DoTest => [RunTests]
  }

  /** The helper that issues each kind of step: every `run` call belongs to
      exactly one helper, except that `link_to_current` repoints the link
      whether or not it is called from setup. */
  predicate MayRun(p: Phase, s: Step)
  {
    match p
    case InitTimestamp => s.ReadClock?
    case CheckNoLocalChanges => s.CheckLocalChanges? || s.RecheckLocalChanges?
    case MakeDirs => s.MakeDir?
    case RepoSetup => s.CloneRepository?
    case RepoCheckout => CheckoutStep(s)
    case UpdateRequirements => s.QueryRequirementsLog? || s.ReinstallRequirements?
    case InstallVirtualenv(_) => s.BuildVirtualenv?
    case DbCreate => s.ListDatabases? || s.CreateDatabase? || s.SyncAndMigrate?
    case TestMigration => s.MigrationDryRun?
    case CompileMessages => s.CompileCatalogs?
    case DoBackup => s.Backup?
    case DoMigration => s.Migrate?
    case LinkToCurrent(setup) => (s.RevokeOldRelease? && !setup) || s.LinkSwap?
    case ServerStart => s.LinkWsgi? || s.ResetDevCheckout? || s.RestartServer?
    case SendReport => s.MailReport?
    case DoTest => s.RunTests?
  }

  /** Which helper a step that changes the live site comes from. */
  lemma {:induction false} Owner(p: Phase, s: Step)
    requires MayRun(p, s)
    ensures s == MigrationDryRun <==> p == TestMigration
    ensures s.Backup? <==> p == DoBackup
    ensures s == Migrate <==> p == DoMigration
    ensures s.RevokeOldRelease? ==> p == LinkToCurrent(false)
    ensures s.LinkSwap? ==> p.LinkToCurrent?
    ensures s.LinkWsgi? || s.ResetDevCheckout? || s.RestartServer? ==> p == ServerStart
  {
  }

  /** Which helper a preparing or reporting step comes from. */
  lemma {:induction false} PrepOwner(p: Phase, s: Step)
    requires MayRun(p, s)
    ensures s == CheckLocalChanges ==> p == CheckNoLocalChanges
    ensures s == RecheckLocalChanges ==> p == CheckNoLocalChanges
    ensures s == CompileCatalogs ==> p == CompileMessages
    ensures s == MailReport <==> p == SendReport
    ensures s.PinRevision? || s.MaterializeRelease? || s.AppendChangelog? ==> p == RepoCheckout
    ensures s.QueryRequirementsLog? || s.ReinstallRequirements? ==> p == UpdateRequirements
    ensures s == CloneRepository <==> p == RepoSetup
    ensures s.CreateDatabase? ==> p == DbCreate
  {
  }

  /** The files a step names: links and backups are those of the new
      release, and the reinstall reads the application root's requirements. */
  predicate ForThisRelease(s: Step, ctx: Context)
  {
    && (s.LinkSwap? ==> s.target == ctx.versionPath)
    && (s.Backup? ==> s.file == Version.BackupFile(ctx.env.appRoot, ctx.versionDir))
    && (s.ReinstallRequirements? ==> s.source == RequirementsFile(ctx.env))
  }

  /** What the presence of a step says about the run: a pin means `rev` was
      given, a reinstall means the requirements changed, and a CREATE names
      the database the listing lacks. */
  predicate Warranted(s: Step, ctx: Context, h: Host, w: World)
  {
    && (s.PinRevision? ==> Truthy(ctx.env.revision))
    && (s.ReinstallRequirements? ==>
          RequirementsDecision(w.history, Previous(h, w), ActualRevision(ctx.env, w)) == Reinstall)
    && (s.CreateDatabase? ==>
          s.name == ctx.settings.dbName && NeedsCreate(ctx.settings.dbName, Listing(h.databases)))
  }

  /** The revisions the git steps name: the pin is the requested revision and
      the requirements query spans the previous and the actual revision. */
  predicate RevisionsOfRun(s: Step, ctx: Context, h: Host, w: World)
  {
    && (s.PinRevision? ==> Truthy(ctx.env.revision) && s.ref == ctx.env.revision.value)
    && (s.QueryRequirementsLog? ==>
          s.from == Render(Previous(h, w)) && s.to == ActualRevision(ctx.env, w))
  }

  /** What holds of every step a helper runs: it is one of the helper's own
      kinds of step, it names this release, it is called for by the run's
      options and state, and its git commands name this run's revisions. */
  predicate StepFacts(p: Phase, s: Step, ctx: Context, h: Host, w: World)
  {
    MayRun(p, s) && ForThisRelease(s, ctx) && Warranted(s, ctx, h, w) && RevisionsOfRun(s, ctx, h, w)
  }

  lemma {:induction false} HelperStepFacts(p: Phase, s: Step, ctx: Context, h: Host, w: World)
    requires s in PhaseSteps(p, ctx, h, w)
    ensures StepFacts(p, s, ctx, h, w)
  {
    if PreparingPhase(p) {
      PreparingStepFacts(p, s, ctx, h, w);
    } else {
      OtherStepFacts(p, s, ctx, h, w);
    }
  }

  /** The helpers that prepare a release (the rest act on the live site, or
      only test or report). */
  predicate PreparingPhase(p: Phase)
  {
    || p.InitTimestamp? || p.CheckNoLocalChanges? || p.MakeDirs? || p.RepoSetup?
    || p.RepoCheckout? || p.UpdateRequirements? || p.InstallVirtualenv? || p.DbCreate?
  }

  lemma {:induction false} PreparingStepFacts(p: Phase, s: Step, ctx: Context, h: Host, w: World)
    requires PreparingPhase(p)
    requires s in PhaseSteps(p, ctx, h, w)
    ensures StepFacts(p, s, ctx, h, w)
  {
    match p
    case DbCreate =>
      var r := DbCreateSteps(ctx.settings.dbName, h.databases, LoginDir);
      var i :| 0 <= i < |r| && r[i] == s;
    case RepoCheckout =>
      assert CheckoutStep(s);
    case _ =>
  }

  lemma {:induction false} OtherStepFacts(p: Phase, s: Step, ctx: Context, h: Host, w: World)
    requires !PreparingPhase(p)
    requires s in PhaseSteps(p, ctx, h, w)
    ensures StepFacts(p, s, ctx, h, w)
  {
  }

  /** The steps of the helpers `ps`, in order. */
  function Expand(ps: seq<Phase>, ctx: Context, h: Host, w: World): seq<Step>
    decreases |ps|
  {
    if ps == [] then [] else PhaseSteps(ps[0], ctx, h, w) + Expand(ps[1..], ctx, h, w)
  }

  lemma {:induction false} ExpandAppend(ps: seq<Phase>, qs: seq<Phase>, ctx: Context, h: Host, w: World)
    ensures Expand(ps + qs, ctx, h, w) == Expand(ps, ctx, h, w) + Expand(qs, ctx, h, w)
    decreases |ps|
  {
    if ps == [] {
      assert ps + qs == qs;
    } else {
      assert (ps + qs)[0] == ps[0];
      assert (ps + qs)[1..] == ps[1..] + qs;
      ExpandAppend(ps[1..], qs, ctx, h, w);
      Associate(PhaseSteps(ps[0], ctx, h, w), Expand(ps[1..], ctx, h, w), Expand(qs, ctx, h, w));
    }
  }

  lemma {:induction false} ExpandSingle(p: Phase, ctx: Context, h: Host, w: World)
    ensures Expand([p], ctx, h, w) == PhaseSteps(p, ctx, h, w)
  {
    assert [p][1..] == [];
  }

  /** A step is in an expansion exactly when one of the helpers runs it. */
  lemma {:induction false} ExpandMember(ps: seq<Phase>, x: Step, ctx: Context, h: Host, w: World)
    ensures x in Expand(ps, ctx, h, w) <==> exists i :: 0 <= i < |ps| && x in PhaseSteps(ps[i], ctx, h, w)
    decreases |ps|
  {
    if ps != [] {
      ExpandMember(ps[1..], x, ctx, h, w);
      if x in Expand(ps[1..], ctx, h, w) {
        var i :| 0 <= i < |ps[1..]| && x in PhaseSteps(ps[1..][i], ctx, h, w);
        assert ps[1..][i] == ps[i + 1];
      }
      if exists i :: 0 <= i < |ps| && x in PhaseSteps(ps[i], ctx, h, w) {
        var i :| 0 <= i < |ps| && x in PhaseSteps(ps[i], ctx, h, w);
        if i > 0 {
          assert ps[1..][i - 1] == ps[i];
        }
      }
    }
  }

  /** A step runs in an expansion only if some helper of it can run it. */
  lemma {:induction false} FromSomePhase(ps: seq<Phase>, x: Step, ctx: Context, h: Host, w: World)
    requires x in Expand(ps, ctx, h, w)
    ensures exists p :: p in ps && x in PhaseSteps(p, ctx, h, w)
  {
    ExpandMember(ps, x, ctx, h, w);
    var i :| 0 <= i < |ps| && x in PhaseSteps(ps[i], ctx, h, w);
    assert ps[i] in ps;
  }

  /** Every step of a helper in the list runs in the expansion. */
  lemma {:induction false} InSomePhase(ps: seq<Phase>, p: Phase, x: Step, ctx: Context, h: Host, w: World)
    requires p in ps && x in PhaseSteps(p, ctx, h, w)
    ensures x in Expand(ps, ctx, h, w)
  {
    ExpandMember(ps, x, ctx, h, w);
    var i :| 0 <= i < |ps| && ps[i] == p;
  }

  /** The helper of `ps` that runs a given step of its expansion. */
  lemma {:induction false} Issuer(ps: seq<Phase>, s: Step, ctx: Context, h: Host, w: World) returns (p: Phase)
    requires s in Expand(ps, ctx, h, w)
    ensures p in ps && MayRun(p, s) && ForThisRelease(s, ctx) && Warranted(s, ctx, h, w)
    ensures RevisionsOfRun(s, ctx, h, w)
  {
    FromSomePhase(ps, s, ctx, h, w);
    p :| p in ps && s in PhaseSteps(p, ctx, h, w);
    HelperStepFacts(p, s, ctx, h, w);
  }

  /** deploy up to its migration dry-run (fabfile.py:376-382). */
  function Preparation(e: Env): seq<Phase>
  {
    [InitTimestamp] + (if !e.force then [CheckNoLocalChanges] else []) + [RepoCheckout, UpdateRequirements]
  }

  /** deploy after its migration dry-run (fabfile.py:383-391). */
  function Release(e: Env): seq<Phase>
  {
    [CompileMessages] + (if e.backup then [DoBackup] else [])
    + [DoMigration, LinkToCurrent(false), ServerStart]
    + (if e.sendEmail then [SendReport] else [])
  }

  /** deploy (fabfile.py:375-391), helper by helper. */
  function DeployPhases(e: Env): seq<Phase>
  {
    Preparation(e) + [TestMigration] + Release(e)
  }

  function DeployPlan(ctx: Context, h: Host, w: World): seq<Step>
  {
    Expand(DeployPhases(ctx.env), ctx, h, w)
  }

  /** The helpers deploy calls: the options decide the local-changes check,
      the backup and the report; the dry-run, migration, link swap and server
      start always happen, and none of setup's own helpers do. */
  predicate DeployCalls(p: Phase, e: Env)
  {
    match p
    case InitTimestamp | RepoCheckout | UpdateRequirements | TestMigration
       | CompileMessages | DoMigration | ServerStart => true
    case CheckNoLocalChanges => !e.force
    case DoBackup => e.backup
    case SendReport => e.sendEmail
    case LinkToCurrent(setup) => !setup
    case MakeDirs | RepoSetup | InstallVirtualenv(_) | DbCreate | DoTest => false
  }

  lemma {:induction false} DeployHelpers(e: Env)
    ensures forall p :: p in DeployPhases(e) <==> DeployCalls(p, e)
  {
  }

  /** deploy's plan is its preparation, the dry-run, then the rest. */
  lemma {:induction false} DeployPlanSplit(ctx: Context, h: Host, w: World)
    ensures DeployPlan(ctx, h, w)
         == Expand(Preparation(ctx.env), ctx, h, w) + [MigrationDryRun] + Expand(Release(ctx.env), ctx, h, w)
  {
    var e := ctx.env;
    ExpandAppend(Preparation(e) + [TestMigration], Release(e), ctx, h, w);
    ExpandAppend(Preparation(e), [TestMigration], ctx, h, w);
    ExpandSingle(TestMigration, ctx, h, w);
  }

  /** The helpers deploy calls before the dry-run and after it. */
  lemma {:induction false} DeploySegmentHelpers(e: Env)
    ensures forall p :: p in Preparation(e) ==>
              p == InitTimestamp || p == CheckNoLocalChanges || p == RepoCheckout || p == UpdateRequirements
    ensures TestMigration !in Release(e)
  {
  }

  /** The ordering guarantee of deploy: the dry-run runs exactly once, and no
      step before it dumps or changes the database, touches the live release or
      restarts the server. */
  lemma {:induction false} DryRunPrecedesDestructiveSteps(ctx: Context, h: Host, w: World)
    ensures var pre := Expand(Preparation(ctx.env), ctx, h, w);
      var rest := Expand(Release(ctx.env), ctx, h, w);
      && DeployPlan(ctx, h, w) == pre + [MigrationDryRun] + rest
      && MigrationDryRun !in pre && MigrationDryRun !in rest
      && (forall s :: s in pre ==> !Destructive(s) && !s.CompileCatalogs? && !s.LinkWsgi? && !s.MailReport?)
  {
    DeployPlanSplit(ctx, h, w);
    var e := ctx.env;
    DeploySegmentHelpers(e);
    forall s | s in Expand(Preparation(e), ctx, h, w)
      ensures !Destructive(s) && s != MigrationDryRun && !s.CompileCatalogs? && !s.LinkWsgi? && !s.MailReport?
    {
      var p := Issuer(Preparation(e), s, ctx, h, w);
      Owner(p, s);
      PrepOwner(p, s);
    }
    if MigrationDryRun in Expand(Release(e), ctx, h, w) {
      var p := Issuer(Release(e), MigrationDryRun, ctx, h, w);
      Owner(p, MigrationDryRun);
    }
  }

  /** deploy's helpers before update_requirements. */
  function BeforeRequirements(e: Env): seq<Phase>
  {
    [InitTimestamp] + (if !e.force then [CheckNoLocalChanges] else []) + [RepoCheckout]
  }

  lemma {:induction false} DeployAroundRequirements(e: Env)
    ensures DeployPhases(e) == BeforeRequirements(e) + [UpdateRequirements] + ([TestMigration] + Release(e))
  {
  }

  /** The requirements query is deploy's first step after repo_checkout. */
  lemma {:induction false} DeployRequirementsSplit(ctx: Context, h: Host, w: World)
    ensures var q := QueryRequirementsLog(Render(Previous(h, w)), ActualRevision(ctx.env, w));
      DeployPlan(ctx, h, w)
        == Expand(BeforeRequirements(ctx.env), ctx, h, w) + [q]
           + (RequirementsSteps(ctx, h, w)[1..] + Expand([TestMigration] + Release(ctx.env), ctx, h, w))
  {
    var e := ctx.env;
    DeployAroundRequirements(e);
    ExpandAround(BeforeRequirements(e), UpdateRequirements, [TestMigration] + Release(e), ctx, h, w);
    Peel(Expand(BeforeRequirements(e), ctx, h, w), RequirementsSteps(ctx, h, w),
         Expand([TestMigration] + Release(e), ctx, h, w));
  }

  lemma {:induction false} Peel<T>(a: seq<T>, r: seq<T>, c: seq<T>)
    requires |r| >= 1
    ensures a + (r + c) == a + [r[0]] + (r[1..] + c)
  {
    assert r == [r[0]] + r[1..];
  }

  /** Nothing deploy runs before update_requirements touches the live site
      or runs the dry-run. */
  lemma {:induction false} BeforeRequirementsPrepares(ctx: Context, h: Host, w: World)
    ensures forall s :: s in Expand(BeforeRequirements(ctx.env), ctx, h, w) ==> !Destructive(s) && s != MigrationDryRun
  {
    forall s | s in Expand(BeforeRequirements(ctx.env), ctx, h, w)
      ensures !Destructive(s) && s != MigrationDryRun
    {
      var p := Issuer(BeforeRequirements(ctx.env), s, ctx, h, w);
      Owner(p, s);
    }
  }

  /** deploy's helpers before `link_to_current` and after it. */
  function BeforeLink(e: Env): seq<Phase>
  {
    Preparation(e) + [TestMigration, CompileMessages] + (if e.backup then [DoBackup] else []) + [DoMigration]
  }

  function AfterLink(e: Env): seq<Phase>
  {
    [ServerStart] + (if e.sendEmail then [SendReport] else [])
  }

  lemma {:induction false} DeployAroundLink(e: Env)
    ensures DeployPhases(e) == BeforeLink(e) + [LinkToCurrent(false)] + AfterLink(e)
    ensures forall p :: p in BeforeLink(e) ==> !p.LinkToCurrent?
  {
  }

  /** deploy's plan around its link step: the old release is made unreadable
      right before the link swap. */
  lemma {:induction false} DeployLinkSplit(ctx: Context, h: Host, w: World)
    ensures DeployPlan(ctx, h, w)
         == Expand(BeforeLink(ctx.env), ctx, h, w) + [RevokeOldRelease]
            + ([LinkSwap(ctx.versionPath)] + Expand(AfterLink(ctx.env), ctx, h, w))
  {
    var e := ctx.env;
    DeployAroundLink(e);
    ExpandAround(BeforeLink(e), LinkToCurrent(false), AfterLink(e), ctx, h, w);
    assert PhaseSteps(LinkToCurrent(false), ctx, h, w) == [RevokeOldRelease, LinkSwap(ctx.versionPath)];
    Regroup(Expand(BeforeLink(e), ctx, h, w), RevokeOldRelease, LinkSwap(ctx.versionPath), Expand(AfterLink(e), ctx, h, w));
  }

  lemma {:induction false} Regroup<T>(a: seq<T>, x: T, y: T, b: seq<T>)
    ensures a + ([x, y] + b) == a + [x] + ([y] + b)
  {
  }

  /** The steps of a helper list around one of its helpers. */
  lemma {:induction false} ExpandAround(ps: seq<Phase>, p: Phase, qs: seq<Phase>, ctx: Context, h: Host, w: World)
    ensures Expand(ps + [p] + qs, ctx, h, w) == Expand(ps, ctx, h, w) + (PhaseSteps(p, ctx, h, w) + Expand(qs, ctx, h, w))
  {
    ExpandAppend(ps + [p], qs, ctx, h, w);
    ExpandAppend(ps, [p], ctx, h, w);
    ExpandSingle(p, ctx, h, w);
    Associate(Expand(ps, ctx, h, w), PhaseSteps(p, ctx, h, w), Expand(qs, ctx, h, w));
  }

  lemma {:induction false} Associate<T>(a: seq<T>, b: seq<T>, c: seq<T>)
    ensures (a + b) + c == a + (b + c)
  {
  }

  /** Nothing deploy runs before `link_to_current` makes a link. */
  lemma {:induction false} NoLinkBefore(ctx: Context, h: Host, w: World)
    ensures forall s :: s in Expand(BeforeLink(ctx.env), ctx, h, w) ==> !s.LinkSwap?
  {
    DeployAroundLink(ctx.env);
    forall s | s in Expand(BeforeLink(ctx.env), ctx, h, w) ensures !s.LinkSwap? {
      var p := Issuer(BeforeLink(ctx.env), s, ctx, h, w);
      Owner(p, s);
    }
  }

  /** Without `force`, deploy's first two helpers are init and
      check_no_local_changes; `ChecksThenRest` is what follows them. */
  function ChecksThenRest(e: Env): seq<Phase>
  {
    [RepoCheckout, UpdateRequirements, TestMigration] + Release(e)
  }

  lemma {:induction false} DeployOpensWithChecks(e: Env)
    requires !e.force
    ensures DeployPhases(e) == [InitTimestamp] + [CheckNoLocalChanges] + ChecksThenRest(e)
  {
  }

  /** Without `force`, deploy's first remote steps are init's clock read and
      the two local-changes checks. */
  lemma {:induction false} DeployChecksFirst(ctx: Context, h: Host, w: World)
    requires !ctx.env.force
    ensures DeployPlan(ctx, h, w)
         == InitSteps(ctx.env) + [CheckLocalChanges] + ([RecheckLocalChanges] + Expand(ChecksThenRest(ctx.env), ctx, h, w))
  {
    DeployOpensWithChecks(ctx.env);
    ExpandAround([InitTimestamp], CheckNoLocalChanges, ChecksThenRest(ctx.env), ctx, h, w);
    ExpandSingle(InitTimestamp, ctx, h, w);
    assert PhaseSteps(CheckNoLocalChanges, ctx, h, w) == [CheckLocalChanges, RecheckLocalChanges];
    Regroup(InitSteps(ctx.env), CheckLocalChanges, RecheckLocalChanges, Expand(ChecksThenRest(ctx.env), ctx, h, w));
  }

  /** deploy runs the local-changes checks exactly when `force` is off. */
  lemma {:induction false} DeployChecksUnlessForced(ctx: Context, h: Host, w: World)
    ensures CheckLocalChanges in DeployPlan(ctx, h, w) <==> !ctx.env.force
    ensures RecheckLocalChanges in DeployPlan(ctx, h, w) <==> !ctx.env.force
  {
    var ps := DeployPhases(ctx.env);
    DeployHelpers(ctx.env);
    if CheckLocalChanges in DeployPlan(ctx, h, w) {
      var p := Issuer(ps, CheckLocalChanges, ctx, h, w);
      PrepOwner(p, CheckLocalChanges);
    }
    if RecheckLocalChanges in DeployPlan(ctx, h, w) {
      var p := Issuer(ps, RecheckLocalChanges, ctx, h, w);
      PrepOwner(p, RecheckLocalChanges);
    }
    if !ctx.env.force {
      InSomePhase(ps, CheckNoLocalChanges, CheckLocalChanges, ctx, h, w);
      InSomePhase(ps, CheckNoLocalChanges, RecheckLocalChanges, ctx, h, w);
    }
  }

  /** deploy dumps the database exactly when backups are on, and only to the
      release's backup file. */
  lemma {:induction false} DeployBacksUpWhenEnabled(ctx: Context, h: Host, w: World)
    ensures var file := Version.BackupFile(ctx.env.appRoot, ctx.versionDir);
      && (Backup(file) in DeployPlan(ctx, h, w) <==> ctx.env.backup)
      && (forall s :: s in DeployPlan(ctx, h, w) && s.Backup? ==> s.file == file)
  {
    var ps := DeployPhases(ctx.env);
    var file := Version.BackupFile(ctx.env.appRoot, ctx.versionDir);
    DeployHelpers(ctx.env);
    forall s | s in DeployPlan(ctx, h, w) && s.Backup? ensures s.file == file && ctx.env.backup {
      var p := Issuer(ps, s, ctx, h, w);
      Owner(p, s);
    }
    if ctx.env.backup {
      InSomePhase(ps, DoBackup, Backup(file), ctx, h, w);
    }
  }

  /** deploy mails the report exactly when `email` was given or the preset asks
      for it. */
  lemma {:induction false} DeployReportsWhenAsked(ctx: Context, h: Host, w: World)
    ensures MailReport in DeployPlan(ctx, h, w) <==> ctx.env.sendEmail
  {
    var ps := DeployPhases(ctx.env);
    DeployHelpers(ctx.env);
    if MailReport in DeployPlan(ctx, h, w) {
      var p := Issuer(ps, MailReport, ctx, h, w);
      PrepOwner(p, MailReport);
    }
    if ctx.env.sendEmail {
      InSomePhase(ps, SendReport, MailReport, ctx, h, w);
    }
  }

  /** Every deploy migrates, hides the old release, and links the new one. */
  lemma {:induction false} DeployAlwaysReleases(ctx: Context, h: Host, w: World)
    ensures Migrate in DeployPlan(ctx, h, w)
    ensures RevokeOldRelease in DeployPlan(ctx, h, w)
    ensures LinkSwap(ctx.versionPath) in DeployPlan(ctx, h, w)
  {
    DeployHelpers(ctx.env);
    InSomePhase(DeployPhases(ctx.env), DoMigration, Migrate, ctx, h, w);
    DeployLinkSplit(ctx, h, w);
  }

  /** The only link any action makes is to the new release. */
  lemma {:induction false} LinksOnlyNewRelease(a: Action, ctx: Context, h: Host, w: World)
    ensures forall s :: s in ActionPlan(a, ctx, h, w) && s.LinkSwap? ==> s.target == ctx.versionPath
  {
    forall s | s in ActionPlan(a, ctx, h, w) && s.LinkSwap? ensures s.target == ctx.versionPath {
      var _ := Issuer(ActionPhases(a, ctx.env), s, ctx, h, w);
    }
  }

  /** deploy pins the release to the requested revision exactly when `rev` was
      given. */
  lemma {:induction false} DeployPinsRequestedRevision(ctx: Context, h: Host, w: World)
    ensures (exists s :: s in DeployPlan(ctx, h, w) && s.PinRevision?) <==> Truthy(ctx.env.revision)
  {
    var ps := DeployPhases(ctx.env);
    DeployHelpers(ctx.env);
    if exists s :: s in DeployPlan(ctx, h, w) && s.PinRevision? {
      var s :| s in DeployPlan(ctx, h, w) && s.PinRevision?;
      var _ := Issuer(ps, s, ctx, h, w);
    }
    if Truthy(ctx.env.revision) {
      InSomePhase(ps, RepoCheckout, PinRevision(ctx.versionPath, ctx.env.revision.value), ctx, h, w);
    }
  }

  /** deploy reinstalls the requirements exactly when they changed since a
      previous revision. */
  lemma {:induction false} DeployReinstallsWhenChanged(ctx: Context, h: Host, w: World)
    ensures ReinstallRequirements(RequirementsFile(ctx.env)) in DeployPlan(ctx, h, w)
        <==> RequirementsDecision(w.history, Previous(h, w), ActualRevision(ctx.env, w)) == Reinstall
    ensures forall s :: s in DeployPlan(ctx, h, w) && s.ReinstallRequirements? ==> s.source == RequirementsFile(ctx.env)
  {
    var ps := DeployPhases(ctx.env);
    var r := ReinstallRequirements(RequirementsFile(ctx.env));
    DeployHelpers(ctx.env);
    if r in DeployPlan(ctx, h, w) {
      var _ := Issuer(ps, r, ctx, h, w);
    }
    if RequirementsDecision(w.history, Previous(h, w), ActualRevision(ctx.env, w)) == Reinstall {
      InSomePhase(ps, UpdateRequirements, r, ctx, h, w);
    }
    forall s | s in DeployPlan(ctx, h, w) && s.ReinstallRequirements?
      ensures s.source == RequirementsFile(ctx.env)
    {
      var _ := Issuer(ps, s, ctx, h, w);
    }
  }

  /** setup up to its call of `db_create` (fabfile.py:136-143). */
  const SetupBeforeDb: seq<Phase> := [InitTimestamp, MakeDirs, RepoSetup, RepoCheckout, InstallVirtualenv(false)]

  /** setup up to its final `link_to_current(setup=True)` (fabfile.py:136-144). */
  const SetupBeforeLink: seq<Phase> := SetupBeforeDb + [DbCreate]

  /** setup (fabfile.py:135-145). */
  const SetupPhases: seq<Phase> := SetupBeforeLink + [LinkToCurrent(true)]

  function SetupPlan(ctx: Context, h: Host, w: World): seq<Step>
  {
    Expand(SetupPhases, ctx, h, w)
  }

  /** The helpers setup calls before `link_to_current`. */
  lemma {:induction false} SetupHelpers()
    ensures forall p :: p in SetupBeforeLink ==> !p.LinkToCurrent?
    ensures DbCreate in SetupPhases && LinkToCurrent(false) !in SetupPhases
  {
  }

  /** Called from setup, `link_to_current` only repoints the link. */
  lemma {:induction false} SetupLinkStep(ctx: Context, h: Host, w: World)
    ensures Expand([LinkToCurrent(true)], ctx, h, w) == [LinkSwap(ctx.versionPath)]
  {
    ExpandSingle(LinkToCurrent(true), ctx, h, w);
  }

  /** setup's plan is its preparation followed by the link to the new release. */
  lemma {:induction false} SetupPlanSplit(ctx: Context, h: Host, w: World)
    ensures SetupPlan(ctx, h, w) == Expand(SetupBeforeLink, ctx, h, w) + [LinkSwap(ctx.versionPath)]
  {
    ExpandAppend(SetupBeforeLink, [LinkToCurrent(true)], ctx, h, w);
    SetupLinkStep(ctx, h, w);
  }

  /** setup clones the repository right after init and the directories. */
  lemma {:induction false} SetupClonesEarly(ctx: Context, h: Host, w: World)
    ensures var opening := Expand([InitTimestamp, MakeDirs], ctx, h, w);
      && (exists rest :: SetupPlan(ctx, h, w) == opening + [CloneRepository] + rest)
      && forall s :: s in opening ==> Inert(s)
  {
    var tail := [RepoCheckout, InstallVirtualenv(false), DbCreate, LinkToCurrent(true)];
    assert SetupPhases == [InitTimestamp, MakeDirs] + [RepoSetup] + tail;
    ExpandAppend([InitTimestamp, MakeDirs] + [RepoSetup], tail, ctx, h, w);
    ExpandAppend([InitTimestamp, MakeDirs], [RepoSetup], ctx, h, w);
    ExpandSingle(RepoSetup, ctx, h, w);
    forall s | s in Expand([InitTimestamp, MakeDirs], ctx, h, w) ensures Inert(s) {
      var _ := Issuer([InitTimestamp, MakeDirs], s, ctx, h, w);
    }
  }

  /** setup links the new release as its very last step, and no step before
      it makes a link. */
  lemma {:induction false} SetupLinksLast(ctx: Context, h: Host, w: World)
    ensures var pre := Expand(SetupBeforeLink, ctx, h, w);
      && SetupPlan(ctx, h, w) == pre + [LinkSwap(ctx.versionPath)]
      && forall s :: s in pre ==> !s.LinkSwap?
  {
    SetupPlanSplit(ctx, h, w);
    forall s | s in Expand(SetupBeforeLink, ctx, h, w) ensures !s.LinkSwap? {
      var p := Issuer(SetupBeforeLink, s, ctx, h, w);
      Owner(p, s);
    }
  }

  /** Before its link, setup runs the helpers up to db_create and then
      db_create's own steps, the migrations in the login directory last. */
  lemma {:induction false} SetupDbSplit(ctx: Context, h: Host, w: World)
    ensures Expand(SetupBeforeLink, ctx, h, w)
        == Expand(SetupBeforeDb, ctx, h, w) + DbCreateSteps(ctx.settings.dbName, h.databases, LoginDir)
  {
    ThenDbCreate(SetupBeforeDb, ctx, h, w);
  }

  lemma {:induction false} ThenDbCreate(ps: seq<Phase>, ctx: Context, h: Host, w: World)
    ensures Expand(ps + [DbCreate], ctx, h, w)
        == Expand(ps, ctx, h, w) + DbCreateSteps(ctx.settings.dbName, h.databases, LoginDir)
  {
    ExpandSnoc(ps, DbCreate, ctx, h, w);
    DbCreatePhase(ctx, h, w);
  }

  lemma {:induction false} ExpandSnoc(ps: seq<Phase>, p: Phase, ctx: Context, h: Host, w: World)
    ensures Expand(ps + [p], ctx, h, w) == Expand(ps, ctx, h, w) + PhaseSteps(p, ctx, h, w)
  {
    ExpandAppend(ps, [p], ctx, h, w);
    ExpandSingle(p, ctx, h, w);
  }

  lemma {:induction false} DbCreatePhase(ctx: Context, h: Host, w: World)
    ensures PhaseSteps(DbCreate, ctx, h, w) == DbCreateSteps(ctx.settings.dbName, h.databases, LoginDir)
  {
  }

  /** setup's last two steps are db_create's migrations in the login
      directory and then the link; no step before them makes a link. */
  lemma {:induction false} SetupEndsWithMigrations(ctx: Context, h: Host, w: World)
    ensures exists before: seq<Step> ::
      && SetupPlan(ctx, h, w) == before + [SyncAndMigrate(LoginDir)] + [LinkSwap(ctx.versionPath)]
      && forall s :: s in before ==> !s.LinkSwap?
  {
    SetupLinksLast(ctx, h, w);
    SetupDbSplit(ctx, h, w);
    var pre := Expand(SetupBeforeLink, ctx, h, w);
    assert pre[|pre| - 1] == SyncAndMigrate(LoginDir);
    SplitLast(pre);
  }

  /** A non-empty sequence is its front and its last element. */
  lemma {:induction false} SplitLast<T>(xs: seq<T>)
    requires xs != []
    ensures xs == xs[..|xs| - 1] + [xs[|xs| - 1]]
    ensures forall x :: x in xs[..|xs| - 1] ==> x in xs
  {
  }

  /** The helpers setup runs before db_create make the release directory. */
  lemma {:induction false} SetupMakesRelease(ctx: Context, h: Host, w: World)
    ensures MaterializeRelease(ctx.versionPath) in Expand(SetupBeforeDb, ctx, h, w)
  {
    assert RepoCheckout in SetupBeforeDb;
    InSomePhase(SetupBeforeDb, RepoCheckout, MaterializeRelease(ctx.versionPath), ctx, h, w);
  }

  /** setup never makes the old release unreadable: it passes `setup=True`. */
  lemma {:induction false} SetupNeverRevokes(ctx: Context, h: Host, w: World)
    ensures RevokeOldRelease !in SetupPlan(ctx, h, w)
  {
    if RevokeOldRelease in SetupPlan(ctx, h, w) {
      var p := Issuer(SetupPhases, RevokeOldRelease, ctx, h, w);
      Owner(p, RevokeOldRelease);
    }
  }

  /** setup runs `db_create`: the listing and the migrations always, the
      CREATE exactly when the listing lacks the database. */
  lemma {:induction false} SetupCreatesMissingDatabase(ctx: Context, h: Host, w: World)
    ensures ListDatabases in SetupPlan(ctx, h, w) && SyncAndMigrate(LoginDir) in SetupPlan(ctx, h, w)
    ensures CreateDatabase(ctx.settings.dbName) in SetupPlan(ctx, h, w)
        <==> NeedsCreate(ctx.settings.dbName, Listing(h.databases))
  {
    var db := DbCreateSteps(ctx.settings.dbName, h.databases, LoginDir);
    assert db[0] in db && db[|db| - 1] in db;
    assert SetupPhases[5] == DbCreate;
    InSomePhase(SetupPhases, DbCreate, ListDatabases, ctx, h, w);
    InSomePhase(SetupPhases, DbCreate, SyncAndMigrate(LoginDir), ctx, h, w);
    var c := CreateDatabase(ctx.settings.dbName);
    if c in SetupPlan(ctx, h, w) {
      var _ := Issuer(SetupPhases, c, ctx, h, w);
    }
    if NeedsCreate(ctx.settings.dbName, Listing(h.databases)) {
      InSomePhase(SetupPhases, DbCreate, c, ctx, h, w);
    }
  }

  /** The actions the script offers on the command line. */
  datatype Action = DeployAction | SetupAction | BackupAction | TestAction | ServerStartAction | VirtualenvAction

  /** The helpers each action calls: deploy and setup as above, then backup
      (394-396), test (398-400), server_start (307-323) and virtualenv
      (235-237), each after its `init`. */
  function ActionPhases(a: Action, e: Env): seq<Phase>
  {
    match a
    case DeployAction => DeployPhases(e)
    case SetupAction => SetupPhases
    case BackupAction => [InitTimestamp, DoBackup]
    case TestAction => [InitTimestamp, DoTest]
    case ServerStartAction => [InitTimestamp, ServerStart]
    case VirtualenvAction => [InitTimestamp, InstallVirtualenv(true)]
  }

  function ActionPlan(a: Action, ctx: Context, h: Host, w: World): seq<Step>
  {
    Expand(ActionPhases(a, ctx.env), ctx, h, w)
  }

  /** Only deploy and setup repoint the live release: any other action leaves
      the app-path link where it was, however it ends. */
  lemma {:induction false} OnlyDeployAndSetupLink(a: Action, ctx: Context, h: Host, w: World)
    requires a != DeployAction && a != SetupAction
    ensures forall s :: s in ActionPlan(a, ctx, h, w) ==> !s.LinkSwap?
    ensures Execute(ActionPlan(a, ctx, h, w), h, w).host.appLink == h.appLink
  {
    var ps := ActionPhases(a, ctx.env);
    var plan := ActionPlan(a, ctx, h, w);
    forall s | s in plan ensures !s.LinkSwap? {
      var p := Issuer(ps, s, ctx, h, w);
      Owner(p, s);
    }
    PointerMovesOnlyByLinkSwap(plan, h, w);
  }

  /** The result of invoking an action: `init` fails before any remote step,
      or the steps run. */
  datatype Run = Misconfigured(error: ConfigError) | Ran(outcome: Outcome)

  /** `fab <tasks> <action>` on host `h`: the option tasks build the
      environment, `init` loads the settings, then the action's steps run. */
  function Invoke(a: Action, ts: seq<Task>, registry: map<string, Settings>, h: Host, w: World): (r: Run)
    ensures r.Misconfigured? <==> Init(FromCommandLine(ts), registry, w.clock).Failure?
    ensures r.Ran? ==> exists ctx :: Init(FromCommandLine(ts), registry, w.clock) == Success(ctx)
                        && r.outcome == Execute(ActionPlan(a, ctx, h, w), h, w)
  {
    match Init(FromCommandLine(ts), registry, w.clock)
    case Failure(err) => Misconfigured(err)
    case Success(ctx) => Ran(Execute(ActionPlan(a, ctx, h, w), h, w))
  }
}

=== FILE: remote.dfy ===
/** Running a sequence of remote steps the way Fabric's `run` does: strictly in
    order, each step either succeeding and taking effect on the host, or exiting
    non-zero and aborting everything after it. */
module Remote {
  import opened Wrappers
  import opened Git
  import opened Steps

  /** The parts of the target host the deployment changes. */
  datatype Host = Host(
    appLink: Option<string>,          // target of the app-path symlink; None when nothing is there
    releases: map<string, string>,    // release directory -> its HEAD commit ("" before any commit)
    unreadable: set<string>,          // release directories chmod-ed to 000
    cloned: bool,                     // <app_root>/repository/<project> exists
    databases: seq<string>,           // databases the MySQL server lists
    backups: set<string>,             // backup files
    changelog: seq<string>)           // lines of <app_root>/CHANGELOG

  /** What the outside world answers: the history of the upstream branch the
      run fetches and checks out (the configured `branch`, fabfile.py:184-187,
      223), the host's clock, whether `git status` reports changes, and which
      commands break for reasons outside the model (a full disk, a lost
      connection, a failing migration). */
  datatype World = World(
    history: seq<Commit>,
    clock: string,
    liveChanges: bool,                // uncommitted changes in the live application path
    loginDirChanges: bool,            // uncommitted changes in the login directory's repository
    loginDirProject: bool,            // the login directory holds a Django project `manage.py` can run
    broken: set<Step>)

  /** What `cd <app_path>; git rev-parse HEAD` prints, if it succeeds. */
  function LiveHead(h: Host): Option<string>
  {
    if h.appLink.Some? && h.appLink.value in h.releases && h.releases[h.appLink.value] != ""
    then Some(h.releases[h.appLink.value])
    else None
  }

  /** The lookup of the previous revision, `None` when the command fails. */
  function PreviousLookup(h: Host, w: World): Option<string>
  {
    if ReadPreviousRevision in w.broken then None else LiveHead(h)
  }

  /** Whether `manage.py` finds a Django project in `dir`: a release directory
      the checkout has made, or the login directory when it happens to hold one. */
  predicate HoldsProject(h: Host, w: World, dir: string)
  {
    if dir == LoginDir then w.loginDirProject else dir in h.releases
  }

  /** Whether step `s` exits non-zero on host `h`. A multi-line script reports
      the status of its last command only, which decides several cases. */
  predicate Fails(h: Host, s: Step, w: World)
  {
    match s
    case RunTests => false                                   // its last command ends in `|| exit 0`
    case ReadPreviousRevision => PreviousLookup(h, w).None?
    case CheckLocalChanges => w.liveChanges || s in w.broken
    case RecheckLocalChanges => w.loginDirChanges || s in w.broken
    case CloneRepository => h.cloned || s in w.broken        // `git clone` refuses an existing directory
    case FetchRepository => !h.cloned || s in w.broken
    case PinRevision(_, ref) => Find(w.history, ref).None? || s in w.broken
    case ReadActualRevision => w.history == [] || s in w.broken
    case QueryRequirementsLog(from, to) => RangeLog(w.history, from, to).None? || s in w.broken
    case RevokeOldRelease => h.appLink.None? || s in w.broken // `chmod` of a path that does not exist
    case SyncAndMigrate(dir) => !HoldsProject(h, w, dir) || s in w.broken
    case _ => s in w.broken
  }

  /** Steps whose failure the script catches instead of aborting (the bare
      `except` of fabfile.py:178). */
  predicate Tolerated(s: Step)
  {
    s.ReadPreviousRevision?
  }

  /** The effect of a step that succeeded. */
  function Apply(h: Host, s: Step, w: World): Host
  {
    match s
    case CloneRepository => h.(cloned := true)
    case MaterializeRelease(dir) => h.(releases := h.releases[dir := TipId(w.history)])
    case PinRevision(dir, ref) => h.(releases := h.releases[dir := ref])
    case AppendChangelog(lines) => h.(changelog := h.changelog + lines)
    case CreateDatabase(name) => h.(databases := h.databases + [name])
    case Backup(file) => h.(backups := h.backups + {file})
    case RevokeOldRelease => if h.appLink.Some? then h.(unreadable := h.unreadable + {h.appLink.value}) else h
    case LinkSwap(target) => h.(appLink := Some(target))
    case _ => h
  }

  /** What a step that exits non-zero has already done to the host. The link
      script repoints the app path with its first command and reports the
      status of its last link (fabfile.py:282-289), so a failing link step has
      moved the live release all the same; any other failing step is taken to
      leave the host as it was. */
  function Fallout(h: Host, s: Step): Host
  {
    if s.LinkSwap? then h.(appLink := Some(s.target)) else h
  }

  datatype Status = Completed | Aborted(at: Step)

  /** The steps that ran (the failing one included), the host afterwards, and
      how the run ended. */
  datatype Outcome = Outcome(trace: seq<Step>, host: Host, status: Status)

  /** Runs `plan` on `h`. The trace is always a prefix of the plan; a run that
      completes ran every step; an aborted run ends with the step that failed. */
  function Execute(plan: seq<Step>, h: Host, w: World): (o: Outcome)
    ensures |o.trace| <= |plan| && o.trace == plan[..|o.trace|]
    ensures o.status.Completed? ==> o.trace == plan
    ensures o.status.Aborted? ==> |o.trace| > 0 && o.trace[|o.trace| - 1] == o.status.at
    decreases |plan|
  {
    if plan == [] then Outcome([], h, Completed)
    else
      var s := plan[0];
      if Fails(h, s, w) && !Tolerated(s) then Outcome([s], Fallout(h, s), Aborted(s))
      else
        var rest := Execute(plan[1..], Apply(h, s, w), w);
        Outcome([s] + rest.trace, rest.host, rest.status)
  }

  /** The host after every step of `plan` took effect. */
  function ApplyAll(plan: seq<Step>, h: Host, w: World): Host
    decreases |plan|
  {
    if plan == [] then h else ApplyAll(plan[1..], Apply(h, plan[0], w), w)
  }

  lemma {:induction false} ApplyAllAppend(a: seq<Step>, b: seq<Step>, h: Host, w: World)
    ensures ApplyAll(a + b, h, w) == ApplyAll(b, ApplyAll(a, h, w), w)
    decreases |a|
  {
    if a == [] {
      assert a + b == b;
    } else {
      assert (a + b)[0] == a[0];
      assert (a + b)[1..] == a[1..] + b;
      ApplyAllAppend(a[1..], b, Apply(h, a[0], w), w);
    }
  }

  /** A run that completes leaves the host as if every step took effect. */
  lemma {:induction false} CompletedAppliesAll(plan: seq<Step>, h: Host, w: World)
    requires Execute(plan, h, w).status.Completed?
    ensures Execute(plan, h, w).host == ApplyAll(plan, h, w)
    decreases |plan|
  {
    if plan != [] {
      CompletedAppliesAll(plan[1..], Apply(h, plan[0], w), w);
    }
  }

  /** Running `a + b` is running `a`, then, if it completed, `b` from where `a`
      left the host. */
  lemma {:induction false} ExecuteAppend(a: seq<Step>, b: seq<Step>, h: Host, w: World)
    ensures var oa := Execute(a, h, w);
      oa.status.Aborted? ==> Execute(a + b, h, w) == oa
    ensures var oa := Execute(a, h, w);
      var ob := Execute(b, oa.host, w);
      oa.status.Completed? ==> Execute(a + b, h, w) == Outcome(a + ob.trace, ob.host, ob.status)
  {
    if Execute(a, h, w).status.Aborted? {
      AbortedPrefix(a, b, h, w);
    } else {
      CompletedPrefix(a, b, h, w);
    }
  }

  lemma {:induction false} AbortedPrefix(a: seq<Step>, b: seq<Step>, h: Host, w: World)
    requires Execute(a, h, w).status.Aborted?
    ensures Execute(a + b, h, w) == Execute(a, h, w)
    decreases |a|
  {
    var s, x := a[0], a + b;
    assert x[0] == s;
    assert x[1..] == a[1..] + b;
    if !(Fails(h, s, w) && !Tolerated(s)) {
      var h1 := Apply(h, s, w);
      AbortedPrefix(a[1..], b, h1, w);
      assert Execute(x, h, w) == Outcome([s] + Execute(a[1..] + b, h1, w).trace, Execute(a[1..] + b, h1, w).host, Execute(a[1..] + b, h1, w).status);
    }
  }

  lemma {:induction false} CompletedPrefix(a: seq<Step>, b: seq<Step>, h: Host, w: World)
    requires Execute(a, h, w).status.Completed?
    ensures var ob := Execute(b, Execute(a, h, w).host, w);
      Execute(a + b, h, w) == Outcome(a + ob.trace, ob.host, ob.status)
    decreases |a|
  {
    if a == [] {
      assert a + b == b;
    } else {
      var s, x := a[0], a + b;
      assert x[0] == s;
      assert x[1..] == a[1..] + b;
      assert !(Fails(h, s, w) && !Tolerated(s));
      var h1 := Apply(h, s, w);
      CompletedPrefix(a[1..], b, h1, w);
      var ra, rx := Execute(a[1..], h1, w), Execute(a[1..] + b, h1, w);
      assert Execute(a, h, w) == Outcome([s] + ra.trace, ra.host, ra.status);
      assert Execute(x, h, w) == Outcome([s] + rx.trace, rx.host, rx.status);
      var ob := Execute(b, ra.host, w);
      Reattach(a, ob.trace);
    }
  }

  lemma {:induction false} Reattach<T>(a: seq<T>, t: seq<T>)
    requires a != []
    ensures [a[0]] + (a[1..] + t) == a + t
  {
    assert a == [a[0]] + a[1..];
  }


  /** The app-path symlink moves only through `LinkSwap`: a plan without one
      leaves the live release where it was, however the run ends. */
  lemma {:induction false} PointerMovesOnlyByLinkSwap(plan: seq<Step>, h: Host, w: World)
    requires forall s :: s in plan ==> !s.LinkSwap?
    ensures Execute(plan, h, w).host.appLink == h.appLink
    decreases |plan|
  {
    if plan != [] {
      var s := plan[0];
      if !(Fails(h, s, w) && !Tolerated(s)) {
        var h1 := Apply(h, s, w);
        assert h1.appLink == h.appLink;
        assert forall t :: t in plan[1..] ==> t in plan;
        PointerMovesOnlyByLinkSwap(plan[1..], h1, w);
        assert Execute(plan, h, w).host == Execute(plan[1..], h1, w).host;
      }
    }
  }

  /** Backup files appear only through `Backup`. */
  lemma {:induction false} BackupsOnlyByBackup(plan: seq<Step>, h: Host, w: World)
    requires forall s :: s in plan ==> !s.Backup?
    ensures Execute(plan, h, w).host.backups == h.backups
    decreases |plan|
  {
    if plan != [] {
      var s := plan[0];
      if !(Fails(h, s, w) && !Tolerated(s)) {
        var h1 := Apply(h, s, w);
        assert h1.backups == h.backups;
        assert forall t :: t in plan[1..] ==> t in plan;
        BackupsOnlyByBackup(plan[1..], h1, w);
        assert Execute(plan, h, w).host == Execute(plan[1..], h1, w).host;
      }
    }
  }

  /** A step that fails right after `a` ends the run with the host as `a`
      left it, apart from what the failing step had already done. */
  lemma {:induction false} FailingStepEnds(a: seq<Step>, x: Step, h: Host, w: World)
    requires !Tolerated(x)
    requires Execute(a, h, w).status.Completed? ==> Fails(Execute(a, h, w).host, x, w)
    ensures Execute(a + [x], h, w).status.Aborted?
    ensures var oa := Execute(a, h, w);
      Execute(a + [x], h, w).host == if oa.status.Completed? then Fallout(oa.host, x) else oa.host
  {
    var oa := Execute(a, h, w);
    ExecuteAppend(a, [x], h, w);
    if oa.status.Completed? {
      assert [x][0] == x;
      assert Execute([x], oa.host, w) == Outcome([x], Fallout(oa.host, x), Aborted(x));
    }
  }

  /** Running `a`, then a step `x` that fails where `a` leaves the host, ends
      the run at `x` whatever follows: nothing after `x` ran, and the host is
      as `a` left it, except that a failing link step has already repointed
      the app path. */
  lemma {:induction false} FailingStepStops(a: seq<Step>, x: Step, b: seq<Step>, h: Host, w: World)
    requires !Tolerated(x)
    requires Execute(a, h, w).status.Completed? ==> Fails(Execute(a, h, w).host, x, w)
    ensures var o, oa := Execute(a + [x] + b, h, w), Execute(a, h, w);
      && o.status.Aborted?
      && (!x.LinkSwap? ==> o.host == oa.host)
      && (x.LinkSwap? && oa.status.Completed? ==> o.host == oa.host.(appLink := Some(x.target)))
      && (forall s :: s in o.trace ==> s in a || s == x)
  {
    FailingStepEnds(a, x, h, w);
    ExecuteAppend(a + [x], b, h, w);
    var o := Execute(a + [x] + b, h, w);
    assert o == Execute(a + [x], h, w);
    assert |o.trace| <= |a| + 1;
    forall s | s in o.trace ensures s in a || s == x {
      var i :| 0 <= i < |o.trace| && o.trace[i] == s;
      assert s == (a + [x])[i];
    }
  }

  /** A step other than a link that fails where the run reaches it, with no
      link before it, ends the run with the app path where it was and no link
      made. */
  lemma {:induction false} FailureBeforeLinkKeepsPointer(a: seq<Step>, x: Step, b: seq<Step>, h: Host, w: World)
    requires !Tolerated(x) && !x.LinkSwap?
    requires Execute(a, h, w).status.Completed? ==> Fails(Execute(a, h, w).host, x, w)
    requires forall s :: s in a ==> !s.LinkSwap?
    ensures var o := Execute(a + [x] + b, h, w);
      && o.status.Aborted?
      && (forall s :: s in o.trace ==> !s.LinkSwap?)
      && o.host.appLink == h.appLink
  {
    FailingStepStops(a, x, b, h, w);
    PointerMovesOnlyByLinkSwap(a, h, w);
  }

  /** The converse of `FailingStepStops`: an aborted run stopped at a step the
      script does not catch, which failed on the host the steps before it left,
      and those steps had all run without aborting. */
  lemma {:induction false} AbortedAtFailing(plan: seq<Step>, h: Host, w: World)
    ensures var o := Execute(plan, h, w);
      o.status.Aborted? ==>
        var k := |o.trace| - 1;
        && !Tolerated(o.status.at)
        && Execute(plan[..k], h, w).status.Completed?
        && Fails(Execute(plan[..k], h, w).host, o.status.at, w)
  {
    var o := Execute(plan, h, w);
    if o.status.Aborted? {
      var k := |o.trace| - 1;
      var pre, x, rest := plan[..k], plan[k], plan[k + 1..];
      assert pre + ([x] + rest) == plan;
      RanPastCompletes(plan, k, h, w);
      AbortAfterCompleted(pre, x, rest, h, w);
    }
  }

  /** After a prefix that completed, a run that aborts at the very next step
      aborts at that step, which failed where the prefix left the host. */
  lemma {:induction false} AbortAfterCompleted(a: seq<Step>, x: Step, rest: seq<Step>, h: Host, w: World)
    requires Execute(a, h, w).status.Completed?
    ensures var o := Execute(a + ([x] + rest), h, w);
      o.status.Aborted? && |o.trace| == |a| + 1 ==>
        o.status.at == x && Fails(Execute(a, h, w).host, x, w) && !Tolerated(x)
  {
    CompletedPrefix(a, [x] + rest, h, w);
    ExecuteCons(x, rest, Execute(a, h, w).host, w);
  }

  /** A step followed by another in the trace did not abort the run: the
      plan up to and including it completes. */
  lemma {:induction false} RanPastCompletes(plan: seq<Step>, n: nat, h: Host, w: World)
    requires n < |Execute(plan, h, w).trace|
    ensures Execute(plan[..n], h, w).status.Completed?
  {
    assert plan[..n] + plan[n..] == plan;
    ExecuteAppend(plan[..n], plan[n..], h, w);
  }

  /** The checks and the directory creation change nothing the model tracks. */
  predicate Inert(s: Step)
  {
    s.ReadClock? || s.CheckLocalChanges? || s.RecheckLocalChanges? || s.MakeDir?
  }

  lemma {:induction false} InertLeavesHost(plan: seq<Step>, h: Host, w: World)
    requires forall s :: s in plan ==> Inert(s)
    ensures Execute(plan, h, w).host == h
    decreases |plan|
  {
    if plan != [] {
      var s := plan[0];
      assert s in plan;
      if !(Fails(h, s, w) && !Tolerated(s)) {
        assert Apply(h, s, w) == h;
        assert forall t :: t in plan[1..] ==> t in plan;
        InertLeavesHost(plan[1..], h, w);
        assert Execute(plan, h, w).host == Execute(plan[1..], h, w).host;
      }
    }
  }

  /** A step other than a link that fails on the starting host, reached
      through inert steps only, ends the run with the host untouched. */
  lemma {:induction false} BlockedAfterInert(a: seq<Step>, x: Step, b: seq<Step>, h: Host, w: World)
    requires forall s :: s in a ==> Inert(s)
    requires !Tolerated(x) && Fails(h, x, w)
    ensures var o := Execute(a + [x] + b, h, w);
      && o.status.Aborted?
      && (!x.LinkSwap? ==> o.host == h)
      && forall s :: s in o.trace ==> s in a || s == x
  {
    InertLeavesHost(a, h, w);
    FailingStepStops(a, x, b, h, w);
  }

  /** An element of a sequence missing from its tail is its head. */
  lemma {:induction false} HeadOrTail<T>(xs: seq<T>, x: T)
    requires x in xs && x !in xs[1..]
    ensures xs[0] == x
  {
    assert xs == [xs[0]] + xs[1..];
  }

  /** A completed run whose only link target is `t`, and which links at
      least once, leaves the app path pointing at `t`. */
  lemma {:induction false} LinksAllTo(plan: seq<Step>, h: Host, w: World, t: string)
    requires forall s :: s in plan && s.LinkSwap? ==> s == LinkSwap(t)
    requires LinkSwap(t) in plan
    requires Execute(plan, h, w).status.Completed?
    ensures Execute(plan, h, w).host.appLink == Some(t)
    decreases |plan|
  {
    var s := plan[0];
    var h1 := Apply(h, s, w);
    var rest := Execute(plan[1..], h1, w);
    assert Execute(plan, h, w) == Outcome([s] + rest.trace, rest.host, rest.status);
    if LinkSwap(t) in plan[1..] {
      assert forall u :: u in plan[1..] ==> u in plan;
      LinksAllTo(plan[1..], h1, w, t);
    } else {
      HeadOrTail(plan, LinkSwap(t));
      forall u | u in plan[1..] ensures !u.LinkSwap? {
        assert u in plan;
      }
      PointerMovesOnlyByLinkSwap(plan[1..], h1, w);
    }
  }

  /** Backup files are never removed. */
  lemma {:induction false} BackupsGrow(plan: seq<Step>, h: Host, w: World)
    ensures h.backups <= Execute(plan, h, w).host.backups
    decreases |plan|
  {
    if plan != [] {
      var s := plan[0];
      if !(Fails(h, s, w) && !Tolerated(s)) {
        var h1 := Apply(h, s, w);
        assert h.backups <= h1.backups;
        BackupsGrow(plan[1..], h1, w);
        assert Execute(plan, h, w).host == Execute(plan[1..], h1, w).host;
      }
    }
  }

  /** A completed run that dumps to `f` leaves `f` behind. */
  lemma {:induction false} BackupTaken(plan: seq<Step>, h: Host, w: World, f: string)
    requires Backup(f) in plan
    requires Execute(plan, h, w).status.Completed?
    ensures f in Execute(plan, h, w).host.backups
    decreases |plan|
  {
    var s := plan[0];
    var h1 := Apply(h, s, w);
    assert Execute(plan, h, w).host == Execute(plan[1..], h1, w).host;
    if Backup(f) in plan[1..] {
      BackupTaken(plan[1..], h1, w, f);
    } else {
      HeadOrTail(plan, Backup(f));
      assert f in h1.backups;
      BackupsGrow(plan[1..], h1, w);
    }
  }

  /** Release directories are never removed. */
  lemma {:induction false} ReleasesGrow(plan: seq<Step>, h: Host, w: World)
    ensures h.releases.Keys <= Execute(plan, h, w).host.releases.Keys
    decreases |plan|
  {
    if plan != [] {
      var s := plan[0];
      if !(Fails(h, s, w) && !Tolerated(s)) {
        var h1 := Apply(h, s, w);
        assert h.releases.Keys <= h1.releases.Keys;
        ReleasesGrow(plan[1..], h1, w);
        assert Execute(plan, h, w).host == Execute(plan[1..], h1, w).host;
      }
    }
  }

  /** A completed run that makes the release directory `dir` leaves it
      behind. */
  lemma {:induction false} ReleaseMade(plan: seq<Step>, h: Host, w: World, dir: string)
    requires MaterializeRelease(dir) in plan
    requires Execute(plan, h, w).status.Completed?
    ensures dir in Execute(plan, h, w).host.releases
    decreases |plan|
  {
    var s := plan[0];
    var h1 := Apply(h, s, w);
    assert Execute(plan, h, w).host == Execute(plan[1..], h1, w).host;
    if MaterializeRelease(dir) in plan[1..] {
      ReleaseMade(plan[1..], h1, w, dir);
    } else {
      HeadOrTail(plan, MaterializeRelease(dir));
      assert dir in h1.releases;
      ReleasesGrow(plan[1..], h1, w);
    }
  }

  /** The CHANGELOG file is append-only: what it held before is a prefix of what
      it holds after any run. */
  lemma {:induction false} ChangelogAppendOnly(plan: seq<Step>, h: Host, w: World)
    ensures var c := Execute(plan, h, w).host.changelog;
      |h.changelog| <= |c| && c[..|h.changelog|] == h.changelog
    decreases |plan|
  {
    if plan != [] {
      var s := plan[0];
      if !(Fails(h, s, w) && !Tolerated(s)) {
        var h1 := Apply(h, s, w);
        assert h1.changelog[..|h.changelog|] == h.changelog;
        ChangelogAppendOnly(plan[1..], h1, w);
        assert Execute(plan, h, w).host == Execute(plan[1..], h1, w).host;
      }
    }
  }

  /** Every step that ran is a step of the plan. */
  lemma {:induction false} TraceFromPlan(plan: seq<Step>, h: Host, w: World)
    ensures forall s :: s in Execute(plan, h, w).trace ==> s in plan
  {
    var t := Execute(plan, h, w).trace;
    forall s | s in t ensures s in plan {
      var i :| 0 <= i < |t| && t[i] == s;
      assert plan[i] == s;
    }
  }

  /** However a run ends, the app path moves only if a link swap actually
      ran: an abort before the swap leaves the live release in place. */
  lemma {:induction false} PointerKeptUntilSwap(plan: seq<Step>, h: Host, w: World)
    requires forall s :: s in Execute(plan, h, w).trace ==> !s.LinkSwap?
    ensures Execute(plan, h, w).host.appLink == h.appLink
    decreases |plan|
  {
    if plan != [] {
      var s := plan[0];
      ExecuteCons(s, plan[1..], h, w);
      assert [s] + plan[1..] == plan;
      if !(Fails(h, s, w) && !Tolerated(s)) {
        var o := Execute(plan, h, w);
        var rest := Execute(plan[1..], Apply(h, s, w), w);
        assert o.trace == [s] + rest.trace;
        assert o.trace[0] == s;
        assert !s.LinkSwap?;
        forall t | t in rest.trace ensures !t.LinkSwap? {
          assert t in o.trace;
        }
        PointerKeptUntilSwap(plan[1..], Apply(h, s, w), w);
      }
    }
  }

  /** A run that completed ran its first step successfully and then the rest. */
  lemma {:induction false} CompletedCons(x: Step, rest: seq<Step>, h: Host, w: World)
    requires Execute([x] + rest, h, w).status.Completed?
    ensures Execute(rest, Apply(h, x, w), w).status.Completed?
    ensures Execute([x] + rest, h, w).host == Execute(rest, Apply(h, x, w), w).host
  {
    ExecuteCons(x, rest, h, w);
  }

  /** A completed three-step run left the host as the three steps' effects. */
  lemma {:induction false} CompletedThree(x: Step, y: Step, z: Step, h: Host, w: World)
    ensures Execute([x, y, z], h, w).status.Completed? ==>
      Execute([x, y, z], h, w).host == Apply(Apply(Apply(h, x, w), y, w), z, w)
  {
    if Execute([x, y, z], h, w).status.Completed? {
      assert [x, y, z] == [x] + ([y] + ([z] + []));
      CompletedCons(x, [y] + ([z] + []), h, w);
      CompletedCons(y, [z] + [], Apply(h, x, w), w);
      CompletedCons(z, [], Apply(Apply(h, x, w), y, w), w);
    }
  }

  /** One step of `Execute`, for a plan written as its first step and the rest. */
  lemma {:induction false} ExecuteCons(x: Step, rest: seq<Step>, h: Host, w: World)
    ensures Fails(h, x, w) && !Tolerated(x) ==> Execute([x] + rest, h, w) == Outcome([x], Fallout(h, x), Aborted(x))
    ensures !(Fails(h, x, w) && !Tolerated(x)) ==>
      var r := Execute(rest, Apply(h, x, w), w);
      Execute([x] + rest, h, w) == Outcome([x] + r.trace, r.host, r.status)
  {
    assert ([x] + rest)[0] == x;
    assert ([x] + rest)[1..] == rest;
  }

  /** `git clone` refuses a directory that already holds the repository; on
      success the repository exists and nothing else changed. */
  lemma {:induction false} CloneOnlyOnce(h: Host, w: World)
    ensures var o := Execute([CloneRepository], h, w);
      && (o.status.Completed? <==> !h.cloned && CloneRepository !in w.broken)
      && (o.status.Completed? ==> o.host == h.(cloned := true))
      && (o.status.Aborted? ==> o.host == h)
  {
    assert [CloneRepository][1..] == [];
  }

  /** `chmod 000` of the app path's target fails when nothing is there; on
      success the old release becomes unreadable. */
  lemma {:induction false} RevokeNeedsLiveRelease(h: Host, w: World)
    ensures var o := Execute([RevokeOldRelease], h, w);
      && (o.status.Completed? <==> h.appLink.Some? && RevokeOldRelease !in w.broken)
      && (o.status.Completed? ==> o.host == h.(unreadable := h.unreadable + {h.appLink.value}))
  {
    assert [RevokeOldRelease][1..] == [];
  }

  /** The link script moves the app path before any of its later links can
      fail: however the step ends, the app path points at `target`
      afterwards, and the step fails only for reasons outside the model. */
  lemma {:induction false} LinkSwapAlwaysRepoints(target: string, h: Host, w: World)
    ensures var o := Execute([LinkSwap(target)], h, w);
      && o.host == h.(appLink := Some(target))
      && (o.status.Aborted? <==> LinkSwap(target) in w.broken)
  {
    assert [LinkSwap(target)][1..] == [];
  }

  /** Revoking the old release and then linking `t`: the run stops at the
      `chmod` having changed nothing, or else has hidden the old release and
      pointed the app path at `t`, however the link script ends. */
  lemma {:induction false} RevokeThenLink(t: string, h: Host, w: World)
    ensures var o := Execute([RevokeOldRelease, LinkSwap(t)], h, w);
      && (o.status.Completed? <==> h.appLink.Some? && RevokeOldRelease !in w.broken && LinkSwap(t) !in w.broken)
      && (o.trace == [RevokeOldRelease] ==> o.status.Aborted? && o.host == h)
      && (o.trace != [RevokeOldRelease] ==>
            h.appLink.Some? && o.host == h.(unreadable := h.unreadable + {h.appLink.value}, appLink := Some(t)))
  {
    var link := LinkSwap(t);
    assert [RevokeOldRelease, link] == [RevokeOldRelease] + ([link] + []);
    assert Fails(h, RevokeOldRelease, w) <==> h.appLink.None? || RevokeOldRelease in w.broken;
    ExecuteCons(RevokeOldRelease, [link] + [], h, w);
    if h.appLink.Some? && RevokeOldRelease !in w.broken {
      var h1 := h.(unreadable := h.unreadable + {h.appLink.value});
      assert Apply(h, RevokeOldRelease, w) == h1;
      assert Fails(h1, link, w) <==> link in w.broken;
      ExecuteCons(link, [], h1, w);
    }
  }

  /** The test script ends in `|| exit 0`, so no run ever aborts at the tests,
      whatever they report. */
  lemma {:induction false} TestsNeverAbort(plan: seq<Step>, h: Host, w: World)
    ensures Execute(plan, h, w).status != Aborted(RunTests)
    decreases |plan|
  {
    if plan != [] {
      var s := plan[0];
      if !(Fails(h, s, w) && !Tolerated(s)) {
        TestsNeverAbort(plan[1..], Apply(h, s, w), w);
      }
    }
  }

  /** The changelog script ends in `tee -a`, whose status is the script's: it
      does not depend on what git knows, and on success the lines are
      appended. */
  lemma {:induction false} ChangelogIgnoresGit(lines: seq<string>, h: Host, w: World)
    ensures var o := Execute([AppendChangelog(lines)], h, w);
      && (o.status.Completed? <==> AppendChangelog(lines) !in w.broken)
      && (o.status.Completed? ==> o.host.changelog == h.changelog + lines)
  {
    assert [AppendChangelog(lines)][1..] == [];
  }

  /** A step that cannot fail on a host that already has its repository and a
      live release. */
  predicate Harmless(s: Step, w: World)
  {
    && (s.RunTests? || s.ReadPreviousRevision? || s !in w.broken)
    && !s.CloneRepository?
    && (s.CheckLocalChanges? ==> !w.liveChanges)
    && (s.RecheckLocalChanges? ==> !w.loginDirChanges)
    && (s.PinRevision? ==> Find(w.history, s.ref).Some?)
    && (s.ReadActualRevision? ==> w.history != [])
    && (s.QueryRequirementsLog? ==> RangeLog(w.history, s.from, s.to).Some?)
    && (s.SyncAndMigrate? ==> s.dir == LoginDir && w.loginDirProject)
  }

  predicate Ready(h: Host)
  {
    h.cloned && h.appLink.Some?
  }

  /** On a ready host, a plan of harmless steps runs to completion. */
  lemma {:induction false} HarmlessPlanCompletes(plan: seq<Step>, h: Host, w: World)
    requires Ready(h)
    requires forall i :: 0 <= i < |plan| ==> Harmless(plan[i], w)
    ensures Execute(plan, h, w).status.Completed?
    decreases |plan|
  {
    if plan != [] {
      assert Harmless(plan[0], w);
      assert !(Fails(h, plan[0], w) && !Tolerated(plan[0]));
      assert forall i :: 0 <= i < |plan[1..]| ==> Harmless(plan[1..][i], w) by {
        forall i | 0 <= i < |plan[1..]| ensures Harmless(plan[1..][i], w) {
          assert plan[1..][i] == plan[i + 1];
        }
      }
      HarmlessPlanCompletes(plan[1..], Apply(h, plan[0], w), w);
    }
  }
}

=== FILE: revision.dfy ===
/** The revision bookkeeping of `repo_checkout` and `update_requirements`
    (fabfile.py:170-210, 239-245): the previous revision, the changelog, and
    whether requirements are reinstalled. */
module Revision {
  import opened Wrappers
  import opened Strings
  import opened Git

  /** `env.previous_revision` as the script initialises it (fabfile.py:66). */
  const InitialPrevious: Option<string> := None

  /** `env.previous_revision` once the lookup of fabfile.py:173-179 has run.
      `lookup` is what `git rev-parse HEAD` prints in the live application path,
      or `None` when that command failed. The failure handler assigns to a
      misspelled attribute, so a failed lookup leaves the attribute as it was. */
  function PreviousAfterLookup(before: Option<string>, lookup: Option<string>): Option<string>
  {
    if lookup.Some? then lookup else before
  }

  /** On a first deployment, where the lookup fails, there is no previous
      revision; when the lookup succeeds its answer is taken as is. */
  lemma {:induction false} PreviousRevisionFromLookup(lookup: Option<string>)
    ensures PreviousAfterLookup(InitialPrevious, lookup) == lookup
  {
  }

  /** The changelog of a deployment: the text kept in `env.changelog` (and
      mailed), and the lines `tee -a` appends to the CHANGELOG file. */
  datatype Changelog = Changelog(text: string, appended: seq<string>)

  /** The first line of the changelog when there is a previous revision. */
  function CompareLink(link: string, prev: string, actual: string): string
  {
    link + "/compare/" + prev + "..." + actual
  }

  /** The lines a log command prints; a rejected revision prints nothing, and
      since the command's status is that of `tee`, the step still succeeds. */
  function LinesOf(log: Option<seq<Commit>>): seq<string>
  {
    if log.Some? then LogLines(log.value) else []
  }

  /** fabfile.py:201-210. */
  function ComposeChangelog(link: string, h: seq<Commit>, prev: Option<string>, actual: string): (c: Changelog)
    ensures Truthy(prev) ==> c.text == CompareLink(link, prev.value, actual) + "\n\n" + Join(c.appended, '\n')
    ensures !Truthy(prev) ==> c.text == Join(c.appended, '\n')
    ensures forall i :: 0 <= i < |c.appended| ==> exists k :: 0 <= k < |h| && c.appended[i] == LogLine(h[k])
  {
    if Truthy(prev) then
      var lines := LinesOf(RangeLog(h, prev.value, actual));
      Changelog(CompareLink(link, prev.value, actual) + "\n\n" + Join(lines, '\n'), lines)
    else
      var lines := LinesOf(SingleLog(h, actual));
      Changelog(Join(lines, '\n'), lines)
  }

  /** With a previous revision the CHANGELOG file receives one line per commit
      after it up to and including the deployed one, oldest first, and the
      mailed text is the compare link, a blank line and those lines. */
  lemma {:induction false} ChangelogListsNewCommits(link: string, h: seq<Commit>, prev: string, actual: string)
    requires prev != ""
    requires Find(h, prev).Some? && Find(h, actual).Some?
    ensures var c := ComposeChangelog(link, h, Some(prev), actual);
      && c.appended == LogLines(Ancestry(h, Find(h, prev).value, Find(h, actual).value, 0))
      && StartsWith(c.text, CompareLink(link, prev, actual) + "\n\n")
  {
    BetweenIsAncestry(h, Find(h, prev).value, Find(h, actual).value);
  }

  /** Without a previous revision the changelog is exactly the log line of the
      deployed commit, in the file and in the mail. */
  lemma {:induction false} ChangelogFirstDeploy(link: string, h: seq<Commit>, prev: Option<string>, actual: string)
    requires !Truthy(prev)
    requires Find(h, actual).Some?
    ensures var c := ComposeChangelog(link, h, prev, actual);
      && c.appended == [LogLine(h[Find(h, actual).value])]
      && c.text == LogLine(h[Find(h, actual).value])
  {
  }

  /** Reading the mailed text back line by line: the compare link, an empty line,
      then the appended lines, provided no commit field holds a newline. */
  lemma {:induction false} ChangelogLinesReadBack(link: string, h: seq<Commit>, prev: string, actual: string)
    requires prev != ""
    requires '\n' !in CompareLink(link, prev, actual)
    requires var c := ComposeChangelog(link, h, Some(prev), actual); |c.appended| >= 1 && NoneContains(c.appended, '\n')
    ensures var c := ComposeChangelog(link, h, Some(prev), actual);
      Split(c.text, '\n') == [CompareLink(link, prev, actual), ""] + c.appended
  {
    var c := ComposeChangelog(link, h, Some(prev), actual);
    var parts := [CompareLink(link, prev, actual), ""] + c.appended;
    assert NoneContains(parts, '\n');
    JoinHeaded(CompareLink(link, prev, actual), c.appended);
    SplitJoin(parts, '\n');
  }

  /** A head line, a blank line and at least one more line, joined. */
  lemma {:induction false} JoinHeaded(head: string, lines: seq<string>)
    requires |lines| >= 1
    ensures Join([head, ""] + lines, '\n') == head + "\n\n" + Join(lines, '\n')
  {
    var parts := [head, ""] + lines;
    assert parts[1..] == [""] + lines;
    assert parts[1..][1..] == lines;
    assert Join(parts[1..], '\n') == "" + ['\n'] + Join(lines, '\n');
    assert Join(parts, '\n') == head + ['\n'] + Join(parts[1..], '\n');
  }

  /** How `%(previous_revision)s` renders: Python prints `None` for no value. */
  function Render(prev: Option<string>): string
  {
    if prev.None? then "None" else prev.value
  }

  /** What `update_requirements` does: the log query aborts the run, or
      requirements are reinstalled, or nothing happens. */
  datatype Requirements = QueryFails | Reinstall | Keep

  /** fabfile.py:242 as written: the log query runs first, with the previous
      revision rendered by `%s`, and only then does the condition look at
      `previous_revision is not None`. */
  function RequirementsAsWritten(h: seq<Commit>, prev: Option<string>, actual: string): Requirements
  {
    match RangeLog(h, Render(prev), actual)
    case None => QueryFails
    case Some(cs) =>
      if Contains(PathLogText(cs, "requirements.txt"), "commit") && prev.Some? then Reinstall else Keep
  }

  /** With no previous revision the query as written asks git for the range
      `None..<actual>`; unless some commit is literally named `None`, git
      rejects it and the deployment aborts. */
  lemma {:induction false} RequirementsAsWrittenAbortsFirstDeploy(h: seq<Commit>, actual: string)
    requires forall k :: 0 <= k < |h| ==> h[k].id != "None"
    ensures RequirementsAsWritten(h, None, actual) == QueryFails
  {
  }

  /** A concrete history on which the first deployment aborts. */
  lemma {:induction false} RequirementsAsWrittenCounterexample()
    ensures RequirementsAsWritten([Commit("c1", "2024-01-01", "init", "dev", {"requirements.txt"})], None, "c1")
         == QueryFails
  {
    RequirementsAsWrittenAbortsFirstDeploy([Commit("c1", "2024-01-01", "init", "dev", {"requirements.txt"})], "c1");
  }

  /** The evidently intended decision: with no previous revision, skip the
      query and keep the requirements; otherwise as written. */
  function RequirementsDecision(h: seq<Commit>, prev: Option<string>, actual: string): (d: Requirements)
    ensures prev.None? ==> d == Keep
    ensures prev.Some? ==> d == RequirementsAsWritten(h, prev, actual)
  {
    if prev.None? then Keep else RequirementsAsWritten(h, prev, actual)
  }

  /** Requirements are reinstalled exactly when there is a previous revision,
      git knows both ends of the range, and some commit of the range touches
      `requirements.txt`; the query fails exactly when git rejects a name. */
  lemma {:induction false} ReinstallIffRequirementsChanged(h: seq<Commit>, prev: Option<string>, actual: string)
    ensures RequirementsDecision(h, prev, actual) == Reinstall
        <==> prev.Some? && RangeLog(h, prev.value, actual).Some?
             && Touches(RangeLog(h, prev.value, actual).value, "requirements.txt")
    ensures RequirementsDecision(h, prev, actual) == QueryFails
        <==> prev.Some? && RangeLog(h, prev.value, actual).None?
  {
    if prev.Some? {
      var r := RangeLog(h, prev.value, actual);
      if r.Some? {
        PathLogMentionsCommit(r.value, "requirements.txt");
      }
    }
  }
}

=== FILE: steps.dfy ===
/** The remote operations of the deployment script. Each constructor stands for
    one `run(...)` call of fabfile.py (or, for `MailReport`, the SMTP exchange),
    which either succeeds or, on a non-zero exit, aborts the whole run. */
module Steps {

  datatype Step =
    | ReadClock                          // init: `date` (fabfile.py:127)
    | CheckLocalChanges                  // check_no_local_changes, in the app path (367-370)
    | RecheckLocalChanges                // check_no_local_changes, in the login directory (371-373)
    | MakeDir(path: string)              // setup: `mkdir -p` (137-140)
    | CloneRepository                    // repo_setup: `git clone` (215-219)
    | ReadPreviousRevision               // repo_checkout: `git rev-parse HEAD` in the app path (174-177)
    | FetchRepository                    // repo_update (222-224)
    | MaterializeRelease(dir: string)    // repo_checkout: copy, checkout, merge, links (181-191)
    | PinRevision(dir: string, ref: string) // repo_checkout: `git checkout -f <rev>` (192-195)
    | ReadActualRevision                 // repo_checkout: `git rev-parse HEAD` in the release (196-199)
    | AppendChangelog(lines: seq<string>)// repo_checkout: `git log ... | tee -a CHANGELOG` (201-210)
    | BuildVirtualenv(source: string)    // install_virtualenv (229-233)
    | QueryRequirementsLog(from: string, to: string) // update_requirements: `git log from..to -- requirements.txt` (242)
    | ReinstallRequirements(source: string) // update_requirements: `pip install -r` (243-245)
    | MigrationDryRun                    // test_migration (260-262)
    | CompileCatalogs                    // compile_messages (271-274)
    | Backup(file: string)               // do_backup (248-250)
    | Migrate                            // do_migration (265-268)
    | ListDatabases                      // db_create: `show databases` (149-151)
    | CreateDatabase(name: string)       // db_create: `create database` (155-157)
    | SyncAndMigrate(dir: string)        // db_create: syncdb and migrate, in `dir` (159-162)
    | RevokeOldRelease                   // link_to_current: `chmod 000` of the old target (279-281)
    | LinkSwap(target: string)           // link_to_current: repoint the app path and shared links (283-290)
    | LinkWsgi(script: string)           // server_start: `live.wsgi` link (310)
    | ResetDevCheckout                   // server_start: `git reset HEAD --hard` on dev (313-315)
    | RestartServer(port: int)           // server_start: kill, wait, runserver, pidfile (316-323)
    | RunTests                           // do_test (254-257)
    | MailReport                         // send_report (326-362)

  /** The directory a `run` without a `cd` works in: the remote user's home. */
  const LoginDir: string := "~"

  /** The steps that must never run before the migration dry-run has passed:
      they dump or change the database, hide or replace the live release, or
      restart the server on it. */
  predicate Destructive(s: Step)
  {
    s.Backup? || s.Migrate? || s.RevokeOldRelease? || s.LinkSwap? || s.ResetDevCheckout? || s.RestartServer?
  }
}

=== FILE: strings.dfy ===
/** The few string operations the deployment script performs on command output and
    configuration values: Python's `str.replace`, `str.split`, `"\n".join`, the
    substring test `sub in s`, and truthiness of an optional string. */
module Strings {
  import opened Wrappers

  /** Python truthiness of a value that is either `None` or a string: both `None`
      and the empty string are false. */
  predicate Truthy(o: Option<string>)
  {
    o.Some? && o.value != ""
  }

  predicate StartsWith(s: string, prefix: string)
  {
    |prefix| <= |s| && s[..|prefix|] == prefix
  }

  /** Python `sub in s` for two strings: `sub` occurs somewhere in `s`. */
  predicate Contains(s: string, sub: string)
    decreases |s|
  {
    StartsWith(s, sub) || (s != [] && Contains(s[1..], sub))
  }

  /** A string that has `sub` inside keeps it when something is put in front. */
  lemma {:induction false} ContainsAfterPrefix(prefix: string, s: string, sub: string)
    requires Contains(s, sub)
    ensures Contains(prefix + s, sub)
    decreases |prefix|
  {
    if prefix != [] {
      assert (prefix + s)[1..] == prefix[1..] + s;
      ContainsAfterPrefix(prefix[1..], s, sub);
    } else {
      assert prefix + s == s;
    }
  }

  /** Nothing non-empty occurs in the empty string. */
  lemma {:induction false} EmptyContainsNothing(sub: string)
    requires sub != []
    ensures !Contains("", sub)
  {
  }

  /** Python `s.replace(target, replacement)` for a one-character `target`: every
      occurrence of `target` becomes `replacement`, every other character stays. */
  function ReplaceChar(s: string, target: char, replacement: string): (r: string)
    ensures target !in replacement ==> target !in r
  {
    if s == [] then []
    else (if s[0] == target then replacement else [s[0]]) + ReplaceChar(s[1..], target, replacement)
  }

  /** Replacing characters distributes over concatenation. */
  lemma {:induction false} ReplaceCharAppend(a: string, b: string, target: char, replacement: string)
    ensures ReplaceChar(a + b, target, replacement)
         == ReplaceChar(a, target, replacement) + ReplaceChar(b, target, replacement)
    decreases |a|
  {
    if a == [] {
      assert a + b == b;
    } else {
      assert (a + b)[0] == a[0];
      assert (a + b)[1..] == a[1..] + b;
      ReplaceCharAppend(a[1..], b, target, replacement);
    }
  }

  /** Python `s.split(sep)` for a one-character separator: the pieces between
      separators, always at least one (`"".split("\n") == [""]`). */
  function Split(s: string, sep: char): (r: seq<string>)
    ensures |r| >= 1
    ensures forall i :: 0 <= i < |r| ==> sep !in r[i]
  {
    if s == [] then [""]
    else
      var rest := Split(s[1..], sep);
      if s[0] == sep then [""] + rest else [[s[0]] + rest[0]] + rest[1..]
  }

  /** Python `sep.join(parts)`. */
  function Join(parts: seq<string>, sep: char): string
  {
    if |parts| == 0 then ""
    else if |parts| == 1 then parts[0]
    else parts[0] + [sep] + Join(parts[1..], sep)
  }

  predicate NoneContains(parts: seq<string>, c: char)
  {
    forall i :: 0 <= i < |parts| ==> c !in parts[i]
  }

  /** Joining one more part appends the separator and that part. */
  lemma {:induction false} JoinSnoc(parts: seq<string>, x: string, sep: char)
    requires |parts| >= 1
    ensures Join(parts + [x], sep) == Join(parts, sep) + [sep] + x
    decreases |parts|
  {
    var ps := parts + [x];
    assert ps[0] == parts[0];
    if |parts| > 1 {
      assert ps[1..] == parts[1..] + [x];
      JoinSnoc(parts[1..], x, sep);
    } else {
      assert ps[1..] == [x];
    }
  }

  /** Joining what was split gives the original string back. */
  lemma {:induction false} JoinSplit(s: string, sep: char)
    ensures Join(Split(s, sep), sep) == s
    decreases |s|
  {
    if s != [] {
      var rest := Split(s[1..], sep);
      JoinSplit(s[1..], sep);
      if s[0] == sep {
        assert Split(s, sep) == [""] + rest;
        assert ([""] + rest)[1..] == rest;
        assert s == [sep] + s[1..];
      } else {
        var parts := [[s[0]] + rest[0]] + rest[1..];
        assert Split(s, sep) == parts;
        if |rest| == 1 {
          assert Join(parts, sep) == [s[0]] + rest[0];
        } else {
          assert parts[1..] == rest[1..];
          assert Join(parts, sep) == [s[0]] + rest[0] + [sep] + Join(rest[1..], sep);
        }
        assert s == [s[0]] + s[1..];
      }
    }
  }

  /** Splitting a piece free of the separator, followed by more text, keeps that
      piece glued to the first part of the rest. */
  lemma {:induction false} SplitAppend(p: string, t: string, sep: char)
    requires sep !in p
    ensures Split(p + t, sep) == [p + Split(t, sep)[0]] + Split(t, sep)[1..]
    decreases |p|
  {
    if p == [] {
      assert p + t == t;
      var r := Split(t, sep);
      assert p + r[0] == r[0];
      assert [r[0]] + r[1..] == r;
    } else {
      assert (p + t)[0] == p[0];
      assert (p + t)[1..] == p[1..] + t;
      SplitAppend(p[1..], t, sep);
      assert [p[0]] + (p[1..] + Split(t, sep)[0]) == p + Split(t, sep)[0];
    }
  }

  /** Splitting what was joined gives the parts back, provided no part holds the
      separator. */
  lemma {:induction false} SplitJoin(parts: seq<string>, sep: char)
    requires |parts| >= 1
    requires NoneContains(parts, sep)
    ensures Split(Join(parts, sep), sep) == parts
    decreases |parts|
  {
    if |parts| == 1 {
      SplitAppend(parts[0], "", sep);
      assert parts[0] + "" == parts[0];
    } else {
      var tail := Join(parts[1..], sep);
      SplitJoin(parts[1..], sep);
      assert parts[0] + [sep] + tail == parts[0] + ([sep] + tail);
      SplitAppend(parts[0], [sep] + tail, sep);
      assert ([sep] + tail)[0] == sep;
      assert ([sep] + tail)[1..] == tail;
      assert Split([sep] + tail, sep) == [""] + parts[1..];
      assert Join(parts, sep) == parts[0] + [sep] + tail;
      assert parts[0] + "" == parts[0];
      assert parts == [parts[0]] + parts[1..];
    }
  }
}

=== FILE: version.dfy ===
/** The version identifier of a release (fabfile.py:127-131): the server's
    timestamp, as printed by `date +"%Y-%m-%d %H:%M:%S"`, with `-` and `:`
    dropped and the space turned into `_`, and the paths built from it. */
module Version {
  import opened Wrappers
  import opened Strings

  predicate IsDigit(c: char)
  {
    '0' <= c <= '9'
  }

  predicate AllDigits(s: string)
  {
    forall i :: 0 <= i < |s| ==> IsDigit(s[i])
  }

  /** A string of the shape `YYYY-MM-DD HH:MM:SS`, as `date +"%Y-%m-%d %H:%M:%S"` prints. */
  predicate IsTimestamp(ts: string)
  {
    && |ts| == 19
    && AllDigits(ts[0..4]) && ts[4] == '-' && AllDigits(ts[5..7]) && ts[7] == '-' && AllDigits(ts[8..10])
    && ts[10] == ' '
    && AllDigits(ts[11..13]) && ts[13] == ':' && AllDigits(ts[14..16]) && ts[16] == ':' && AllDigits(ts[17..19])
  }

  /** A string of the shape `YYYYMMDD_HHMMSS`. */
  predicate IsVersionDir(v: string)
  {
    |v| == 15 && AllDigits(v[0..8]) && v[8] == '_' && AllDigits(v[9..15])
  }

  /** `env.version_dir`: the three `str.replace` calls of fabfile.py:128, in order. */
  function VersionDir(ts: string): (v: string)
    ensures '-' !in v && ':' !in v && ' ' !in v
  {
    VersionDirIsCharwise(ts);
    ReplaceChar(ReplaceChar(ReplaceChar(ts, '-', ""), ':', ""), ' ', "_")
  }

  /** What one timestamp character turns into. */
  function NormalChar(c: char): string
  {
    if c == '-' || c == ':' then "" else if c == ' ' then "_" else [c]
  }

  /** A character-by-character reading of the transform, independent of the
      order of the three replacements. */
  function Normalize(ts: string): (v: string)
    ensures '-' !in v && ':' !in v && ' ' !in v
  {
    if ts == [] then [] else NormalChar(ts[0]) + Normalize(ts[1..])
  }

  /** The three replacements, composed, applied to one character. */
  lemma {:induction false} ReplaceOneChar(c: char)
    ensures ReplaceChar(ReplaceChar(ReplaceChar([c], '-', ""), ':', ""), ' ', "_") == NormalChar(c)
  {
    ReplaceSingle(c, '-', "");
    if c != '-' {
      ReplaceSingle(c, ':', "");
      if c != ':' {
        ReplaceSingle(c, ' ', "_");
      }
    }
  }

  lemma {:induction false} ReplaceSingle(c: char, target: char, replacement: string)
    ensures ReplaceChar([c], target, replacement) == if c == target then replacement else [c]
  {
    assert [c][1..] == [];
  }

  /** The three replacements, composed, distribute over concatenation. */
  lemma {:induction false} ReplaceAllAppend(a: string, b: string)
    ensures ReplaceChar(ReplaceChar(ReplaceChar(a + b, '-', ""), ':', ""), ' ', "_")
         == ReplaceChar(ReplaceChar(ReplaceChar(a, '-', ""), ':', ""), ' ', "_")
          + ReplaceChar(ReplaceChar(ReplaceChar(b, '-', ""), ':', ""), ' ', "_")
  {
    ReplaceCharAppend(a, b, '-', "");
    var a1, b1 := ReplaceChar(a, '-', ""), ReplaceChar(b, '-', "");
    ReplaceCharAppend(a1, b1, ':', "");
    var a2, b2 := ReplaceChar(a1, ':', ""), ReplaceChar(b1, ':', "");
    ReplaceCharAppend(a2, b2, ' ', "_");
  }

  /** The chained replacements act on each character on its own: `-` and `:`
      vanish, a space becomes `_`, everything else is kept. */
  lemma {:induction false} VersionDirIsCharwise(ts: string)
    ensures ReplaceChar(ReplaceChar(ReplaceChar(ts, '-', ""), ':', ""), ' ', "_") == Normalize(ts)
    decreases |ts|
  {
    if ts != [] {
      assert ts == [ts[0]] + ts[1..];
      ReplaceAllAppend([ts[0]], ts[1..]);
      ReplaceOneChar(ts[0]);
      VersionDirIsCharwise(ts[1..]);
    }
  }

  lemma {:induction false} NormalizeAppend(a: string, b: string)
    ensures Normalize(a + b) == Normalize(a) + Normalize(b)
    decreases |a|
  {
    if a == [] {
      assert a + b == b;
    } else {
      assert (a + b)[0] == a[0];
      assert (a + b)[1..] == a[1..] + b;
      NormalizeAppend(a[1..], b);
    }
  }

  lemma {:induction false} NormalizeDigits(d: string)
    requires AllDigits(d)
    ensures Normalize(d) == d
    decreases |d|
  {
    if d != [] {
      assert AllDigits(d[1..]) by {
        forall i | 0 <= i < |d[1..]| ensures IsDigit(d[1..][i]) {
          assert d[1..][i] == d[i + 1];
        }
      }
      NormalizeDigits(d[1..]);
      assert d == [d[0]] + d[1..];
    }
  }

  /** A run of `k` digits starting at `lo`, then one more character. */
  lemma {:induction false} NormalizeGroup(t: string, lo: nat, k: nat)
    requires lo + k < |t|
    requires AllDigits(t[lo..lo + k])
    ensures Normalize(t[lo..]) == t[lo..lo + k] + (NormalChar(t[lo + k]) + Normalize(t[lo + k + 1..]))
  {
    var u := t[lo..];
    assert u == u[..k] + u[k..];
    NormalizeAppend(u[..k], u[k..]);
    assert u[..k] == t[lo..lo + k];
    NormalizeDigits(u[..k]);
    assert u[k..][0] == t[lo + k];
    assert u[k..][1..] == t[lo + k + 1..];
  }

  /** The digit groups of a timestamp: `YYYYMMDD_HHMMSS`. */
  function Compact(ts: string): string
    requires |ts| == 19
  {
    ts[0..4] + (ts[5..7] + (ts[8..10] + ("_" + (ts[11..13] + (ts[14..16] + ts[17..19])))))
  }

  /** On a `YYYY-MM-DD HH:MM:SS` timestamp the version directory is its digit
      groups with `_` between date and time. */
  lemma {:induction false} VersionDirOfTimestamp(ts: string)
    requires IsTimestamp(ts)
    ensures VersionDir(ts) == Compact(ts)
  {
    VersionDirIsCharwise(ts);
    NormalizeTimestamp(ts);
  }

  lemma {:induction false} NormalizeTimestamp(ts: string)
    requires IsTimestamp(ts)
    ensures Normalize(ts) == Compact(ts)
  {
    assert ts[0..] == ts;
    NormalizeDay(ts);
    NormalizeGroup(ts, 5, 2);
    NormalizeGroup(ts, 0, 4);
  }

  /** From the day on, `DD HH:MM:SS` becomes `DD_HHMMSS`. */
  lemma {:induction false} NormalizeDay(ts: string)
    requires IsTimestamp(ts)
    ensures Normalize(ts[8..]) == ts[8..10] + ("_" + (ts[11..13] + (ts[14..16] + ts[17..19])))
  {
    NormalizeTime(ts);
    NormalizeGroup(ts, 8, 2);
  }

  /** The time part `HH:MM:SS` becomes `HHMMSS`. */
  lemma {:induction false} NormalizeTime(ts: string)
    requires IsTimestamp(ts)
    ensures Normalize(ts[11..]) == ts[11..13] + (ts[14..16] + ts[17..19])
  {
    NormalizeMinutes(ts);
    NormalizeGroup(ts, 11, 2);
  }

  /** `MM:SS` becomes `MMSS`. */
  lemma {:induction false} NormalizeMinutes(ts: string)
    requires IsTimestamp(ts)
    ensures Normalize(ts[14..]) == ts[14..16] + ts[17..19]
  {
    assert ts[17..] == ts[17..19];
    NormalizeDigits(ts[17..19]);
    NormalizeGroup(ts, 14, 2);
  }

  /** Reads the timestamp back out of a version directory name. */
  function TimestampOf(v: string): string
    requires |v| == 15
  {
    v[0..4] + "-" + v[4..6] + "-" + v[6..8] + " " + v[9..11] + ":" + v[11..13] + ":" + v[13..15]
  }

  /** Round trip: a timestamp of the `date` format is recovered from its version
      directory, which has the shape `YYYYMMDD_HHMMSS`. */
  lemma {:induction false} TimestampRoundTrip(ts: string)
    requires IsTimestamp(ts)
    ensures IsVersionDir(VersionDir(ts))
    ensures TimestampOf(VersionDir(ts)) == ts
  {
    VersionDirOfTimestamp(ts);
    CompactShape(ts);
    CompactReadBack(ts);
  }

  lemma {:induction false} CompactShape(ts: string)
    requires IsTimestamp(ts)
    ensures IsVersionDir(Compact(ts))
  {
    var v := Compact(ts);
    assert v[0..8] == ts[0..4] + ts[5..7] + ts[8..10];
    assert v[9..15] == ts[11..13] + ts[14..16] + ts[17..19];
  }

  lemma {:induction false} CompactReadBack(ts: string)
    requires IsTimestamp(ts)
    ensures TimestampOf(Compact(ts)) == ts
  {
    var v := Compact(ts);
    assert v[0..4] == ts[0..4] && v[4..6] == ts[5..7] && v[6..8] == ts[8..10];
    assert v[9..11] == ts[11..13] && v[11..13] == ts[14..16] && v[13..15] == ts[17..19];
    var back := TimestampOf(v);
    assert back == ts[0..4] + [ts[4]] + ts[5..7] + [ts[7]] + ts[8..10] + [ts[10]]
                 + ts[11..13] + [ts[13]] + ts[14..16] + [ts[16]] + ts[17..19];
    assert forall i :: 0 <= i < 19 ==> back[i] == ts[i];
  }

  /** Round trip the other way: every `YYYYMMDD_HHMMSS` name is the version
      directory of exactly the timestamp read back from it. */
  lemma {:induction false} VersionDirRoundTrip(v: string)
    requires IsVersionDir(v)
    ensures IsTimestamp(TimestampOf(v))
    ensures VersionDir(TimestampOf(v)) == v
  {
    ReadBackShape(v);
    VersionDirOfTimestamp(TimestampOf(v));
    CompactOfReadBack(v);
  }

  lemma {:induction false} ReadBackShape(v: string)
    requires IsVersionDir(v)
    ensures IsTimestamp(TimestampOf(v))
  {
    var ts := TimestampOf(v);
    assert ts[0..4] == v[0..4] && ts[5..7] == v[4..6] && ts[8..10] == v[6..8];
    assert ts[11..13] == v[9..11] && ts[14..16] == v[11..13] && ts[17..19] == v[13..15];
    assert v[0..8][0..4] == v[0..4] && v[0..8][4..6] == v[4..6] && v[0..8][6..8] == v[6..8];
    assert v[9..15][0..2] == v[9..11] && v[9..15][2..4] == v[11..13] && v[9..15][4..6] == v[13..15];
  }

  lemma {:induction false} CompactOfReadBack(v: string)
    requires |v| == 15 && v[8] == '_'
    ensures Compact(TimestampOf(v)) == v
  {
    var ts := TimestampOf(v);
    assert ts[0..4] == v[0..4] && ts[5..7] == v[4..6] && ts[8..10] == v[6..8];
    assert ts[11..13] == v[9..11] && ts[14..16] == v[11..13] && ts[17..19] == v[13..15];
    assert forall i :: 0 <= i < 15 ==> Compact(ts)[i] == v[i];
  }

  /** Two different `date` timestamps never share a version directory. */
  lemma {:induction false} VersionDirInjective(a: string, b: string)
    requires IsTimestamp(a) && IsTimestamp(b)
    requires a != b
    ensures VersionDir(a) != VersionDir(b)
  {
    TimestampRoundTrip(a);
    TimestampRoundTrip(b);
  }

  /** Outside the `date` shape the transform does collide: a dash between two
      strings is simply dropped. */
  lemma {:induction false} DroppedDashCollides(a: string, b: string)
    ensures a + "-" + b != a + b
    ensures VersionDir(a + "-" + b) == VersionDir(a + b)
  {
    assert |a + "-" + b| != |a + b|;
    VersionDirIsCharwise(a + "-" + b);
    VersionDirIsCharwise(a + b);
    NormalizeAppend(a + "-", b);
    NormalizeAppend(a, "-");
    NormalizeAppend(a, b);
    var dash := "-";
    assert dash[0] == '-' && dash[1..] == [];
    assert Normalize(dash) == NormalChar('-') + Normalize([]);
    assert Normalize(dash) == [];
    assert Normalize(a + "-") == Normalize(a);
  }

  /** `env.version_path` (fabfile.py:129): the release directory. It always lies
      under the application root and is never the live application path. */
  function VersionPath(appRoot: string, versionDir: string, project: string): (p: string)
    ensures StartsWith(p, appRoot + "/")
    ensures p != AppPath(appRoot, project)
  {
    assert |appRoot + "/" + versionDir + "/" + project| > |AppPath(appRoot, project)|;
    appRoot + "/" + versionDir + "/" + project
  }

  /** `env.app_path` (fabfile.py:130): the symlink that designates the live release. */
  function AppPath(appRoot: string, project: string): string
  {
    appRoot + "/" + project
  }

  /** `env.virtualenv` (fabfile.py:131). */
  function VirtualenvPath(appRoot: string): string
  {
    appRoot + "/pyenv"
  }

  /** The compressed dump `do_backup` leaves behind (fabfile.py:248-249). */
  function BackupFile(appRoot: string, versionDir: string): string
  {
    appRoot + "/backups/" + versionDir + "_backup.sql.gz"
  }

  /** Deployments started at different seconds get different release
      directories and different backup files. */
  lemma {:induction false} DistinctTimestampsDistinctReleases(appRoot: string, project: string, a: string, b: string)
    requires IsTimestamp(a) && IsTimestamp(b)
    requires a != b
    ensures VersionPath(appRoot, VersionDir(a), project) != VersionPath(appRoot, VersionDir(b), project)
    ensures BackupFile(appRoot, VersionDir(a)) != BackupFile(appRoot, VersionDir(b))
  {
    VersionDirInjective(a, b);
    var va, vb := VersionDir(a), VersionDir(b);
    TimestampRoundTrip(a);
    TimestampRoundTrip(b);
    var n := |appRoot| + 1;
    var pa, pb := VersionPath(appRoot, va, project), VersionPath(appRoot, vb, project);
    assert pa[n..n + 15] == va;
    assert pb[n..n + 15] == vb;
    var m := |appRoot| + 9;
    var fa, fb := BackupFile(appRoot, va), BackupFile(appRoot, vb);
    assert fa[m..m + 15] == va;
    assert fb[m..m + 15] == vb;
  }
}

=== FILE: wrappers.dfy ===
/** Optional values and results, for the places where the deployment script uses
    Python's `None` or fails with an exception. */
module Wrappers {

  /** A value that may be absent; `None` plays the role of Python's `None`. */
  datatype Option<+T> = None | Some(value: T)

  /** Either a value or the error that prevented computing it. */
  datatype Result<+T, +E> = Success(value: T) | Failure(error: E)
}
